=== FILE: README.md ===
# BotScanner core in Dafny

BotScanner reads a CSV list of news outlets and fetches each outlet's
`robots.txt`. It decides which AI crawlers each site shuts out. It then
summarises the whole cohort. This project models the four pieces of
`app/page.tsx` that do that work:

- `registry.dfy` holds the `AI_BOTS` registry (module `Registry`). It has 34
  crawler names, each with an owner and a category, kept in the literal's
  order. `Lookup` is the `AI_BOTS[name]` access.
- `csv.dfy` holds `parseCSVLine` (module `Csv`), the quote-aware comma
  splitter. It is written twice:
  - `ParseCsvLine`, a loop like the source's;
  - `Scan`, a recursive reference state machine.

  The module also holds the mapping of one data row onto the header names.
- `robots.dfy` holds `parseRobotsTxt` (module `Robots`):
  - CRLF normalisation and line splitting;
  - the classification of each trimmed line (user-agent, disallow, sitemap,
    crawl-delay, comment or blank);
  - the left fold over the lines that tracks the current user agent and the
    set of blocked registry names;
  - the final record with its count, strategy tier and sorted list.

  `RunMeaning` and `ParseRobotsTxtMeaning` relate the fold to a declarative
  reading. A name is blocked when some `Disallow: /` line stands under a
  user agent that is `*` or equals that name ignoring case.
- `summary.dfy` holds `generateSummary` (module `Cohort`):
  - the site counts;
  - the per-bot tally over blocking sites and the top ten by count;
  - the per-category tally, where a site counts once per category it touches.

  The lemmas tie every tally to an independent count over the sites
  (`Blockers`, `Touching`).

`options.dfy` holds the `Option` type that stands for `null` and `undefined`.
`text.dfy` models the JavaScript string primitives the core uses (module
`Text`):

- `trim` over the full ECMAScript white-space set;
- ASCII `toLowerCase`;
- `startsWith`;
- `split` on one character;
- the default string `sort`.

`tally.dfy` models a JavaScript object used as a counter (module `Tally`).
It is an association list in insertion order, with the ES2019 stable sort by
descending count and `slice(0, n)`.

## Model

| member | source | states |
|---|---|---|
| Registry.Lookup | app/page.tsx:259-260 | A name is found exactly when some registry entry carries it; what is found is an entry of the registry with that name |
| Registry.LookupFindsEntry | app/page.tsx:39-83 | In a registry with distinct names, looking up an entry's name returns that entry with its owner and category |
| Registry.NamesCount | app/page.tsx:39-83 | In a registry with distinct names there are as many names as entries |
| Registry.AiBotsShape | app/page.tsx:39-83 | The registry has 34 entries, and two of them (`Meta-ExternalAgent`, `meta-externalagent`) differ only in case |
| Registry.AiBotsDistinct | app/page.tsx:39-83 | The 34 keys of the registry literal are pairwise distinct, as the keys of a JavaScript object are |
| Registry.AiBotsNames | app/page.tsx:39-83 | The registry knows exactly 34 different names |
| Text.TrimMeaning | app/page.tsx:180 | The trimmed line is the infix left after removing white space from both ends |
| Text.TrimEmptyIffAllSpace | app/page.tsx:169 | The trimmed text is empty exactly when every character is white space |
| Text.JoinSplit | app/page.tsx:173 | Joining the pieces of a split with the separator gives back the original text |
| Text.SplitPieces | app/page.tsx:173 | No piece of a split holds the separator, and there is one more piece than separators |
| Text.SplitJoin | app/page.tsx:173 | Splitting a join of separator-free pieces gives back the pieces |
| Text.Lower | app/page.tsx:182-192 | Lower-casing keeps the length and maps each character on its own: ASCII capitals to their small letters, every other character to itself |
| Text.LowerEqualIff | app/page.tsx:192 | Two texts are equal after lower-casing exactly when they have the same length and agree at each position, character for character or as an ASCII capital and its small letter |
| Text.SortStrings | app/page.tsx:211 | The sorted list is ordered by code points and is a permutation of the input |
| Text.SortedDistinct | app/page.tsx:211 | A sorted list whose elements occur once each is strictly increasing |
| Csv.Scan | app/page.tsx:86-108 | The reference reading of a line, character by character with the in-quotes flag; it always yields at least one field, since the last field is pushed after the loop |
| Csv.ParseCsvLine | app/page.tsx:86-108 | The loop returns exactly the fields the quote-aware state machine reads from the line, starting outside quotes |
| Csv.FieldCount | app/page.tsx:99-106 | A line has one more field than it has commas read outside quotes |
| Csv.NoQuotesIsSplit | app/page.tsx:86-108 | On a line without quote characters the parser agrees with plain splitting at commas |
| Csv.EncodeRoundTrip | app/page.tsx:92-98 | Quoting every field (doubling its quotes) and joining with commas is undone by the parser, for any fields |
| Csv.Row | app/page.tsx:128-131 | The row object has exactly the header names as keys |
| Csv.RowMeaning | app/page.tsx:129-131 | Each header maps to the value in its column, or to the empty string past the end of the row; when a header repeats, the last such column wins |
| Robots.Lines | app/page.tsx:173 | The lines hold no line feed, and there is one more line than there are line feeds in the content |
| Robots.NormalizeNewlines | app/page.tsx:173 | Replacing CRLF by LF never lengthens the text and keeps the number of line feeds |
| Robots.NormalizeNewlinesMeaning | app/page.tsx:173 | Split at LF before and after the CR LF rewrite, each piece that an LF ends loses one CR before that LF (if it has one), and the last piece is unchanged; with `JoinSplit` this fixes the rewritten text |
| Robots.NewlineStyleIrrelevant | app/page.tsx:173-187 | Normalising CRLF before splitting yields the same directives as splitting at LF only, because a trailing CR is trimmed away |
| Robots.ClassifyTrimmed | app/page.tsx:180-200 | A trimmed line is skipped exactly when empty or starting with `#`; it is a user-agent, disallow, sitemap or crawl-delay line exactly when its first 11, 9, 8 or 12 characters lower-case to that keyword and colon; the agent and path are the trimmed rest |
| Robots.Step | app/page.tsx:184-201 | One line: a user-agent line sets the current agent and no other line changes it; a sitemap or crawl-delay line sets its flag and flags never clear; blocked names are never removed |
| Robots.Run | app/page.tsx:179-202 | Over any lines, blocked names are never removed and a flag once set stays set |
| Robots.Strategy | app/page.tsx:205-209 | The tier is one of the five names, and it is `None` exactly when nothing is blocked |
| Robots.StrategyMonotone | app/page.tsx:205-209 | More blocked bots never give a lower tier; gives the count range of each tier (1-3 Basic, 4-10 Moderate, 11-20 Comprehensive, 21 or more Extensive) |
| Robots.Targets | app/page.tsx:190-194 | The bots a `Disallow: /` adds are always registry names |
| Robots.TargetsMeaning | app/page.tsx:190-194 | Under agent `*` every registry name is targeted; under any other agent exactly the names equal to it ignoring ASCII case, stated both through lower-casing and character by character |
| Robots.CaseVariantsBlockedTogether | app/page.tsx:190-194 | Two registry names that differ only in case are blocked together by one `Disallow: /` under either name |
| Robots.WildcardBlocksAll | app/page.tsx:184-209 | `User-agent: *` then `Disallow: /` blocks all 34 registry names whatever came before, so the count is 34 and the tier is `Extensive` |
| Robots.IgnorableIsSkip | app/page.tsx:180-181 | A line is ignored exactly when it is blank after trimming or starts with `#` |
| Robots.IgnorableLinesChangeNothing | app/page.tsx:179-181 | Dropping the blank and comment lines does not change the state the parser reaches |
| Robots.DisallowRule | app/page.tsx:186-196 | The blocked set changes only at a `Disallow: /` line under a non-empty agent; such a line adds the agent's targets, and under `*` the whole registry |
| Robots.StepGrows | app/page.tsx:186-196 | One line never removes a blocked name and only adds registry names |
| Robots.RunBlocksOnlyRegistry | app/page.tsx:174-202 | Over any lines the blocked set only grows, and only by registry names |
| Robots.RunAppend | app/page.tsx:179-202 | Processing one more line is one more step after the lines before it |
| Robots.RunPrefix | app/page.tsx:175-201 | After any prefix of the lines, the fold holds the most recent user agent, the names blocked by earlier lines, and whether a sitemap or crawl-delay line appeared |
| Robots.RunMeaning | app/page.tsx:174-202 | After all lines, the fold's state equals the declarative reading of the file |
| Robots.NoAgentNoBlock | app/page.tsx:186 | A file with no user-agent line blocks nothing |
| Robots.Enumerate | app/page.tsx:211 | The listed names are distinct and are exactly the blocked registry names |
| Robots.Report | app/page.tsx:204-211 | The record says robots.txt exists; the count equals the list length and the number of blocked names; `blocksAI` holds exactly when the count is positive; the tier matches the count; the list is strictly sorted and holds exactly the blocked names; the flags are copied |
| Robots.ReportMeaning | app/page.tsx:204-211 | A name is in the record's list exactly when it is a registry name and some `Disallow: /` line blocks it; the flags hold exactly when a sitemap or crawl-delay line occurs |
| Robots.ParseRobotsTxt | app/page.tsx:168-212 | A blank or empty file gives the empty record; otherwise robots.txt exists. The count equals the list length, which is at most the registry size; `blocksAI` holds exactly when the count is positive; the tier matches the count; the list is strictly sorted and holds only registry names |
| Robots.ParseRobotsTxtMeaning | app/page.tsx:168-212 | For a non-blank file, a name is listed exactly when it is a registry name and some `Disallow: /` line stands under an agent that targets it; `hasSitemaps` and `hasCrawlDelay` hold exactly when such a line occurs |
| Tally.Bump | app/page.tsx:261-264 | Counting one more occurrence raises the total by one |
| Tally.BumpShape | app/page.tsx:261-264 | A known key keeps its place and length; a new key is appended with count 1; no count decreases |
| Tally.BumpCount | app/page.tsx:264 | Exactly the bumped key's count grows, by one |
| Tally.BumpAllCount | app/page.tsx:258-266 | After counting a list of keys, each key's count grows by its number of occurrences in the list |
| Tally.SortByCount | app/page.tsx:273-274 | The sorted entries are a permutation of the tally, ordered by non-increasing count |
| Tally.SortStable | app/page.tsx:274 | Entries with the same count keep their relative (insertion) order |
| Tally.SortKeepsCounts | app/page.tsx:273-274 | Sorting does not change any key's count |
| Tally.BumpAll | app/page.tsx:268-270 | Counting a list of keys raises the total by the list's length; keys already stored keep their place and no count drops |
| Tally.Take | app/page.tsx:275 | `slice(0, n)` keeps exactly the first n entries, unchanged, or all of them when there are at most n |
| Tally.TopDominates | app/page.tsx:273-275 | Every entry kept by the top-n cut has a count at least that of any entry it drops |
| Tally.PermutationKeepsUnique | app/page.tsx:273-274 | Reordering a tally with distinct keys keeps the keys distinct |
| Cohort.Where | app/page.tsx:242-248 | The filter keeps exactly the records that have the flag, and is no longer than the input |
| Cohort.WhereCount | app/page.tsx:242-248 | The filter's length is the number of positions holding a record with the flag, so equal records count once each |
| Cohort.WhereMultiset | app/page.tsx:242-248 | The filter holds every copy of each record that has the flag and no copy of the others |
| Cohort.SiteCategories | app/page.tsx:257-265 | A site's category set has no repeats and holds exactly the categories of the registry bots it lists |
| Cohort.GenerateSummary | app/page.tsx:238-291 | There is no summary exactly for an empty cohort. Otherwise: total is the number of records; the counts of sites with robots.txt, blocking AI, with a crawl delay and with sitemaps are each the number of positions whose record has that flag; sites with and without robots.txt add up to the total; at most ten top bots; both lists by non-increasing count |
| Cohort.ParsedIsCoherent | app/page.tsx:168-212 | Every record the parser produces has a count equal to its list length, a repeat-free list of registry names, and blocks AI only if robots.txt exists |
| Cohort.TallyBots | app/page.tsx:256-267 | Filling the bot tally never moves a bot already counted nor lowers its count |
| Cohort.TallyCategories | app/page.tsx:256-271 | Filling the category tally never moves a category already counted nor lowers its count |
| Cohort.TopBots | app/page.tsx:273-276 | The top list has as many rows as the bot tally has entries, capped at ten, by non-increasing count |
| Cohort.CategoryRows | app/page.tsx:278-284 | The category rows are ordered by non-increasing count |
| Cohort.TallyBotsCount | app/page.tsx:256-267 | Each registry bot's tally is the number of blocking sites that list it; anything else has count 0 |
| Cohort.TallyBotsKeeps | app/page.tsx:256-267 | The bot tally's keys stay registry entries, distinct, each with a positive count |
| Cohort.TallyBotsTotal | app/page.tsx:250-267 | For parser-made records, the bot tallies add up to the sum of the sites' blocked counts |
| Cohort.TallyCategoriesCount | app/page.tsx:256-271 | Each category's tally is the number of blocking sites that list at least one registry bot of that category |
| Cohort.TallyCategoriesKeeps | app/page.tsx:268-270 | The category tally's keys stay distinct, each with a positive count |
| Cohort.CategoryOnce | app/page.tsx:257-270 | A site adds one to a category exactly when it lists a bot of that category, however many it lists |
| Cohort.WhereBlockingWithinRobots | app/page.tsx:242-244 | For parser-made records, no more sites block AI than have a robots.txt |
| Cohort.SummaryCounts | app/page.tsx:242-250 | For parser-made records, the blocking count is at most the with-robots count, and the blocked-bots total equals the sum of all per-bot tallies |
| Cohort.SummaryTopBots | app/page.tsx:256-276 | For parser-made records, each row of the summary's `topBlockedBots` is a registry bot with its owner and category and a count equal to the number of blocking sites listing it, which is positive; no bot appears twice; a list shorter than ten holds every registry bot some blocking site lists |
| Cohort.SummaryCategories | app/page.tsx:256-284 | Each row of the summary's `categoryAnalysis` counts the blocking sites touching its category, a positive number at most `sitesBlockingAICount`; no category appears twice; every touched category has a row |
| Cohort.TopBotsMeaning | app/page.tsx:256-276 | Each top row is a registry bot with its registry owner and category, and its count is the positive number of blocking sites that list it; no bot appears twice |
| Cohort.TopBotsComplete | app/page.tsx:273-276 | A top list shorter than ten holds every registry bot that some blocking site lists |
| Cohort.LeftOutBotsRankLower | app/page.tsx:273-275 | A listed bot missing from the top ten is listed by no more sites than any top row |
| Cohort.CategoryRowsMeaning | app/page.tsx:256-284 | Each category row counts the blocking sites touching the category, a positive number at most the number of blocking sites; categories are distinct, and every touched category has a row |

## Left out

- Fetching (`fetchRobotsTxt`, its `https://` prefixing and the `app/api` relay route) is network I/O. The model starts from the fetched text; a failed fetch is empty content.
- `handleFileUpload` and `analyzeAllSites` are left out: file reading, the async loop, progress updates, the 50 ms delay and React state. Also left out there: splitting the upload at `/\r?\n/`, skipping blank lines, and the `try`/`catch` around row parsing, which cannot throw.
- The page layout (JSX), CSV export and the `fetchUrl` field are presentation only.
- `averageBotsBlocked` and the percentages are left out. They are floating-point division formatted with `toFixed(1)`, and Dafny has no IEEE doubles. The integer counts they derive from are modelled.
- Text.Lower: `toLowerCase` is modelled on ASCII letters only. Full Unicode lower-casing maps a few other characters (the Kelvin sign to `k`, for instance), so an agent line written with such characters could match a registry name in the browser and not in the model.
- Text.SortStrings: orders by Unicode code points, while JavaScript compares UTF-16 code units. They differ only above U+FFFF, and registry names are ASCII.
- Csv.Row: a header named `__proto__` becomes an ordinary key of the model's row. In the browser, `row['__proto__'] = value` calls the inherited setter, which ignores a string, so that row has no such key. No other header name is affected.
- Registry.Lookup: uses an exact name match over the registry. It leaves out the inherited prototype properties (such as `constructor`) that `AI_BOTS[name]` would also find. Parser-made lists hold only registry names, so this affects only hand-made records.
- Tally: keys keep insertion order. JavaScript lists integer-like object keys first in numeric order, but no bot name or category is integer-like.
- Cohort.TallyBots: counts by registry entry rather than by the name string. Since `Lookup` is a function of the name, this is the same count.

=== FILE: csv.dfy ===
/**
 * The CSV line splitter of the upload step (`parseCSVLine`): a one-pass
 * character machine with an `inQuotes` flag. A comma outside quotes ends a
 * field; inside quotes, `""` stands for one literal quote; every other quote
 * character only toggles `inQuotes` and is dropped. Also the mapping of one
 * row onto the header names.
 */
module Csv {
  import opened Text

  /** Prefix the first field of `fields` with `w`. */
  function Glue(w: string, fields: seq<string>): (r: seq<string>)
    requires |fields| >= 1
    ensures |r| == |fields|
  {
    [w + fields[0]] + fields[1..]
  }

  /**
   * The fields of `s` read from a state with the given `inQuotes` flag. The
   * first field returned continues the field being read when `s` starts.
   */
  function Scan(s: string, inQuotes: bool): (fields: seq<string>)
    ensures |fields| >= 1
    decreases |s|
  {
    if |s| == 0 then [""]
    else if s[0] == '"' then
      if inQuotes && |s| > 1 && s[1] == '"' then Glue(['"'], Scan(s[2..], inQuotes))
      else Scan(s[1..], !inQuotes)
    else if s[0] == ',' && !inQuotes then [""] + Scan(s[1..], inQuotes)
    else Glue([s[0]], Scan(s[1..], inQuotes))
  }

  /** `parseCSVLine`, as the source writes it: a loop over the characters. */
  method ParseCsvLine(line: string) returns (fields: seq<string>)
    ensures fields == Scan(line, false)
  {
    var result: seq<string> := [];
    var current := "";
    var inQuotes := false;
    var i := 0;
    GlueEmpty(Scan(line, false));
    assert line[0..] == line;
    while i < |line|
      invariant 0 <= i <= |line|
      invariant Scan(line, false) == result + Glue(current, Scan(line[i..], inQuotes))
      decreases |line| - i
    {
      var c := line[i];
      ScanStep(line, i, inQuotes);
      if c == '"' {
        if inQuotes && i + 1 < |line| && line[i + 1] == '"' {
          GlueGlue(current, ['"'], Scan(line[i + 2..], inQuotes));
          current := current + ['"'];
          i := i + 1;  // skip the second quote
        } else {
          inQuotes := !inQuotes;
        }
      } else if c == ',' && !inQuotes {
        GlueSplit(result, current, Scan(line[i + 1..], inQuotes));
        result := result + [current];
        current := "";
      } else {
        GlueGlue(current, [c], Scan(line[i + 1..], inQuotes));
        current := current + [c];
      }
      i := i + 1;
    }
    assert line[i..] == [];
    assert current + "" == current;
    fields := result + [current];
  }

  /** One step of `Scan` at position `i`, one case per branch of the loop. */
  lemma {:induction false} ScanStep(line: string, i: nat, inQuotes: bool)
    requires i < |line|
    ensures line[i] == '"' && inQuotes && i + 1 < |line| && line[i + 1] == '"' ==>
      Scan(line[i..], inQuotes) == Glue(['"'], Scan(line[i + 2..], inQuotes))
    ensures line[i] == '"' && !(inQuotes && i + 1 < |line| && line[i + 1] == '"') ==>
      Scan(line[i..], inQuotes) == Scan(line[i + 1..], !inQuotes)
    ensures line[i] == ',' && !inQuotes ==>
      Scan(line[i..], inQuotes) == [""] + Scan(line[i + 1..], inQuotes)
    ensures line[i] != '"' && !(line[i] == ',' && !inQuotes) ==>
      Scan(line[i..], inQuotes) == Glue([line[i]], Scan(line[i + 1..], inQuotes))
  {
    var rest := line[i..];
    assert rest[0] == line[i] && rest[1..] == line[i + 1..];
    if |rest| > 1 {
      assert rest[1] == line[i + 1] && rest[2..] == line[i + 2..];
    }
  }

  /** Closing the current field at a comma. */
  lemma {:induction false} GlueSplit(result: seq<string>, current: string, next: seq<string>)
    requires |next| >= 1
    ensures result + Glue(current, [""] + next) == (result + [current]) + Glue("", next)
  {
    assert current + "" == current;
    GlueEmpty(next);
  }

  lemma {:induction false} GlueEmpty(fields: seq<string>)
    requires |fields| >= 1
    ensures Glue("", fields) == fields
  {
    assert "" + fields[0] == fields[0];
  }

  lemma {:induction false} GlueGlue(w: string, v: string, fields: seq<string>)
    requires |fields| >= 1
    ensures Glue(w, Glue(v, fields)) == Glue(w + v, fields)
  {
    assert w + (v + fields[0]) == (w + v) + fields[0];
  }

  /** Commas read outside quotes, with the same quote rules as `Scan`. */
  function UnquotedCommas(s: string, inQuotes: bool): nat
    decreases |s|
  {
    if |s| == 0 then 0
    else if s[0] == '"' then
      if inQuotes && |s| > 1 && s[1] == '"' then UnquotedCommas(s[2..], inQuotes)
      else UnquotedCommas(s[1..], !inQuotes)
    else if s[0] == ',' && !inQuotes then 1 + UnquotedCommas(s[1..], inQuotes)
    else UnquotedCommas(s[1..], inQuotes)
  }

  /** There is one more field than there are commas outside quotes. */
  lemma {:induction false} FieldCount(s: string, inQuotes: bool)
    ensures |Scan(s, inQuotes)| == UnquotedCommas(s, inQuotes) + 1
    decreases |s|
  {
    if |s| > 0 {
      if s[0] == '"' && inQuotes && |s| > 1 && s[1] == '"' {
        FieldCount(s[2..], inQuotes);
      } else if s[0] == '"' {
        FieldCount(s[1..], !inQuotes);
      } else {
        FieldCount(s[1..], inQuotes);
      }
    }
  }

  /** On a line without quote characters the splitter is plain `split(',')`. */
  lemma {:induction false} NoQuotesIsSplit(s: string)
    requires '"' !in s
    ensures Scan(s, false) == Split(s, ',')
    decreases |s|
  {
    if |s| > 0 {
      assert '"' !in s[1..];
      NoQuotesIsSplit(s[1..]);
    }
  }

  // ----- quoting, the inverse of the splitter -----

  /** Double every quote character. */
  function Escape(f: string): (r: string)
    ensures '"' !in f ==> r == f
  {
    if |f| == 0 then ""
    else if f[0] == '"' then "\"\"" + Escape(f[1..])
    else [f[0]] + Escape(f[1..])
  }

  /** A field in quotes, with its quotes doubled. */
  function Quote(f: string): string {
    "\"" + Escape(f) + "\""
  }

  /** A line made of the quoted fields separated by commas. */
  function Encode(fields: seq<string>): string
    requires |fields| >= 1
    decreases |fields|
  {
    if |fields| == 1 then Quote(fields[0])
    else Quote(fields[0]) + "," + Encode(fields[1..])
  }

  /** Inside quotes, an escaped field and its closing quote read back as the field. */
  lemma {:induction false} ScanEscaped(f: string, t: string)
    requires t == [] || t[0] != '"'
    ensures Scan(Escape(f) + "\"" + t, true) == Glue(f, Scan(t, false))
    decreases |f|
  {
    var s := Escape(f) + "\"" + t;
    if |f| == 0 {
      assert s == "\"" + t;
      assert s[1..] == t;
      assert "" + Scan(t, false)[0] == Scan(t, false)[0];
    } else if f[0] == '"' {
      assert s == "\"\"" + (Escape(f[1..]) + "\"" + t);
      assert s[2..] == Escape(f[1..]) + "\"" + t;
      ScanEscaped(f[1..], t);
      GlueGlue(['"'], f[1..], Scan(t, false));
      assert ['"'] + f[1..] == f;
    } else {
      assert s == [f[0]] + (Escape(f[1..]) + "\"" + t);
      assert s[1..] == Escape(f[1..]) + "\"" + t;
      ScanEscaped(f[1..], t);
      GlueGlue([f[0]], f[1..], Scan(t, false));
      assert [f[0]] + f[1..] == f;
    }
  }

  /** Quoting every field and joining with commas is undone by the splitter. */
  lemma {:induction false} EncodeRoundTrip(fields: seq<string>)
    requires |fields| >= 1
    ensures Scan(Encode(fields), false) == fields
    decreases |fields|
  {
    var f := fields[0];
    var t := if |fields| == 1 then "" else "," + Encode(fields[1..]);
    assert Encode(fields) == "\"" + (Escape(f) + "\"" + t);
    assert (Encode(fields))[1..] == Escape(f) + "\"" + t;
    ScanEscaped(f, t);
    if |fields| == 1 {
      assert f + "" == f;
      assert [f] == fields;
    } else {
      assert t[1..] == Encode(fields[1..]);
      EncodeRoundTrip(fields[1..]);
      assert Scan(t, false) == [""] + fields[1..];
      assert f + "" == f;
      assert [f] + fields[1..] == fields;
    }
  }

  // ----- one data row onto the header names -----

  /** `values[index] || ''`: the value, or the empty string past the end. */
  function Cell(values: seq<string>, index: nat): string {
    if index < |values| then values[index] else ""
  }

  /** The row object built by `headers.forEach((header, index) => row[header] = ...)`. */
  function Row(headers: seq<string>, values: seq<string>): (row: map<string, string>)
    ensures row.Keys == set h | h in headers
    decreases |headers|
  {
    if |headers| == 0 then map[]
    else
      var n := |headers| - 1;
      assert headers == headers[..n] + [headers[n]];
      Row(headers[..n], values)[headers[n] := Cell(values, n)]
  }

  /**
   * Every header gets the value in its column, or `''` when the row is
   * shorter; when a header name repeats, the last column of that name wins.
   */
  lemma {:induction false} RowMeaning(headers: seq<string>, values: seq<string>, j: nat)
    requires j < |headers|
    requires forall k :: j < k < |headers| ==> headers[k] != headers[j]
    ensures Row(headers, values)[headers[j]] == Cell(values, j)
    decreases |headers|
  {
    var n := |headers| - 1;
    if j < n {
      var init := headers[..n];
      assert init[j] == headers[j];
      RowMeaning(init, values, j);
    }
  }
}

=== FILE: options.dfy ===
/** Optional values, standing for the `string | null` and `undefined` results of the source. */
module Options {
  datatype Option<+T> = None | Some(value: T)
}

=== FILE: registry.dfy ===
/**
 * The table of known AI-related crawlers (`AI_BOTS`): each user-agent name
 * with its owning organisation and a display category. The JavaScript object
 * is an ordered collection of distinct keys; it is modelled as a sequence in
 * literal order, so that `Object.keys` order is visible to the model.
 */
module Registry {
  import opened Options
  import opened Text

  datatype Bot = Bot(name: string, owner: string, category: string)

  /** What a JavaScript object guarantees of its keys: no name appears twice. */
  predicate WellFormed(reg: seq<Bot>) {
    forall i, j :: 0 <= i < j < |reg| ==> reg[i].name != reg[j].name
  }

  function Names(reg: seq<Bot>): set<string> {
    set b | b in reg :: b.name
  }

  /** `AI_BOTS[name]`: the entry stored under exactly this key, if any. */
  function Lookup(reg: seq<Bot>, name: string): (r: Option<Bot>)
    ensures r.Some? ==> r.value in reg && r.value.name == name
    ensures r.None? <==> name !in Names(reg)
  {
    if |reg| == 0 then None
    else if reg[0].name == name then Some(reg[0])
    else
      assert Names(reg) == {reg[0].name} + Names(reg[1..]) by {
        assert reg == [reg[0]] + reg[1..];
      }
      Lookup(reg[1..], name)
  }

  /** In a well-formed registry every entry is found under its own name. */
  lemma {:induction false} LookupFindsEntry(reg: seq<Bot>, b: Bot)
    requires WellFormed(reg)
    requires b in reg
    ensures Lookup(reg, b.name) == Some(b)
  {
    if reg[0] != b {
      assert reg[0].name != b.name by {
        var k :| 0 <= k < |reg| && reg[k] == b;
      }
      assert WellFormed(reg[1..]) by {
        forall i, j | 0 <= i < j < |reg[1..]| ensures reg[1..][i].name != reg[1..][j].name {
          assert reg[1..][i] == reg[i + 1] && reg[1..][j] == reg[j + 1];
        }
      }
      assert b in reg[1..];
      LookupFindsEntry(reg[1..], b);
    }
  }

  /** A well-formed registry has as many names as entries. */
  lemma {:induction false} NamesCount(reg: seq<Bot>)
    requires WellFormed(reg)
    ensures |Names(reg)| == |reg|
  {
    if |reg| > 0 {
      var rest := reg[1..];
      assert WellFormed(rest) by {
        forall i, j | 0 <= i < j < |rest| ensures rest[i].name != rest[j].name {
          assert rest[i] == reg[i + 1] && rest[j] == reg[j + 1];
        }
      }
      NamesCount(rest);
      assert reg == [reg[0]] + rest;
      assert Names(reg) == {reg[0].name} + Names(rest);
      assert reg[0].name !in Names(rest);
    }
  }

  /** The crawler table of the scanner, in the order it is written. */
  const AiBots: seq<Bot> := [
    // Major AI labs
    Bot("GPTBot", "OpenAI", "Major AI"),
    Bot("ChatGPT-User", "OpenAI", "Major AI"),
    Bot("OAI-SearchBot", "OpenAI", "Major AI"),
    Bot("Google-Extended", "Google", "Major AI"),
    Bot("anthropic-ai", "Anthropic", "Major AI"),
    Bot("ClaudeBot", "Anthropic", "Major AI"),
    Bot("Claude-Web", "Anthropic", "Major AI"),
    Bot("Claude-User", "Anthropic", "Major AI"),
    Bot("Claude-SearchBot", "Anthropic", "Major AI"),
    Bot("cohere-ai", "Cohere", "Major AI"),
    Bot("MistralAI-User", "Mistral", "Major AI"),
    Bot("FacebookBot", "Meta", "Social Media"),
    Bot("Meta-ExternalAgent", "Meta", "Social Media"),
    Bot("meta-externalagent", "Meta", "Social Media"),
    // Search and aggregators
    Bot("PerplexityBot", "Perplexity", "Search"),
    Bot("Perplexity-User", "Perplexity", "Search"),
    Bot("YouBot", "You.com", "Search"),
    Bot("DuckAssistBot", "DuckDuckGo", "Search"),
    Bot("PetalBot", "Petal Search", "Search"),
    // Web crawlers and SEO
    Bot("Bytespider", "ByteDance", "Web Crawler"),
    Bot("TikTokSpider", "ByteDance", "Web Crawler"),
    Bot("CCBot", "Common Crawl", "Web Crawler"),
    Bot("AhrefsBot", "Ahrefs", "SEO"),
    Bot("Applebot", "Apple", "Web Crawler"),
    Bot("Applebot-Extended", "Apple", "Web Crawler"),
    Bot("Amazonbot", "Amazon", "Web Crawler"),
    Bot("Diffbot", "Diffbot", "Web Crawler"),
    // Academic and other
    Bot("AI2Bot", "Allen Institute", "Academic"),
    Bot("Ai2Bot-Dolma", "Allen Institute", "Academic"),
    Bot("img2dataset", "Academic", "Academic"),
    Bot("news-please", "Academic", "Academic"),
    Bot("magpie-crawler", "Academic", "Academic"),
    // Unknown or generic
    Bot("Omgilibot", "Omgili", "Generic"),
    Bot("omgili", "Omgili", "Generic")
  ]

  /**
   * The table has 34 distinct keys, but two of them differ only in case, so
   * they are not distinct once compared case-insensitively.
   */
  lemma {:induction false} AiBotsShape()
    ensures |AiBots| == 34
    ensures AiBots[12].name != AiBots[13].name
    ensures Lower(AiBots[12].name) == Lower(AiBots[13].name)
  {
    assert AiBots[12].name == "Meta-ExternalAgent";
    assert AiBots[13].name == "meta-externalagent";
    assert Lower("Meta-ExternalAgent") == "meta-externalagent";
  }

  /** A short fingerprint of a name: its length and its first two letters. */
  function Fingerprint(s: string): (int, char, char) {
    if |s| < 2 then (|s|, ' ', ' ') else (|s|, s[0], s[1])
  }

  /** The fingerprints of the registry names, in the literal's order. */
  const Fingerprints: seq<(int, char, char)> := [
    (6, 'G', 'P'),
    (12, 'C', 'h'),
    (13, 'O', 'A'),
    (15, 'G', 'o'),
    (12, 'a', 'n'),
    (9, 'C', 'l'),
    (10, 'C', 'l'),
    (11, 'C', 'l'),
    (16, 'C', 'l'),
    (9, 'c', 'o'),
    (14, 'M', 'i'),
    (11, 'F', 'a'),
    (18, 'M', 'e'),
    (18, 'm', 'e'),
    (13, 'P', 'e'),
    (15, 'P', 'e'),
    (6, 'Y', 'o'),
    (13, 'D', 'u'),
    (8, 'P', 'e'),
    (10, 'B', 'y'),
    (12, 'T', 'i'),
    (5, 'C', 'C'),
    (9, 'A', 'h'),
    (8, 'A', 'p'),
    (17, 'A', 'p'),
    (9, 'A', 'm'),
    (7, 'D', 'i'),
    (6, 'A', 'I'),
    (12, 'A', 'i'),
    (11, 'i', 'm'),
    (11, 'n', 'e'),
    (14, 'm', 'a'),
    (9, 'O', 'm'),
    (6, 'o', 'm')
  ]

  lemma {:induction false} FingerprintsMatch()
    ensures |Fingerprints| == |AiBots|
    ensures forall i | 0 <= i < |AiBots| :: Fingerprint(AiBots[i].name) == Fingerprints[i]
  {
  }

  lemma {:induction false} FingerprintsDistinct()
    ensures forall i, j | 0 <= i < j < |Fingerprints| :: Fingerprints[i] != Fingerprints[j]
  {
  }

  /** The 34 keys of the literal are distinct, as a JavaScript object's keys are. */
  lemma {:induction false} AiBotsDistinct()
    ensures WellFormed(AiBots)
  {
    FingerprintsMatch();
    FingerprintsDistinct();
  }

  /** The registry knows 34 different names. */
  lemma {:induction false} AiBotsNames()
    ensures |Names(AiBots)| == 34
  {
    AiBotsDistinct();
    NamesCount(AiBots);
  }
}

=== FILE: robots.dfy ===
/**
 * The robots.txt reading of the scanner (`parseRobotsTxt`): a deliberately
 * simplified reading of the Robots Exclusion Protocol. Lines are trimmed and
 * matched by case-insensitive prefix; the last `User-agent:` value is the
 * current agent; a `Disallow:` whose path is exactly `/` blocks every
 * registry bot the current agent names (all of them for `*`). There is no
 * `Allow`, no longest match and no grouping of consecutive agents.
 */
module Robots {
  import opened Options
  import opened Text
  import opened Registry

  // ----- line splitting -----

  /** `s.replace(/\r\n/g, '\n')`: each CR LF pair, scanned left to right, becomes one LF. */
  function NormalizeNewlines(s: string): (r: string)
    ensures |r| <= |s|
    ensures multiset(r)['\n'] == multiset(s)['\n']
    decreases |s|
  {
    if |s| >= 2 && s[0] == '\r' && s[1] == '\n' then
      assert s == ['\r', '\n'] + s[2..];
      ['\n'] + NormalizeNewlines(s[2..])
    else if |s| == 0 then ""
    else
      assert s == [s[0]] + s[1..];
      [s[0]] + NormalizeNewlines(s[1..])
  }

  /** `content.replace(/\r\n/g, '\n').split('\n')`. */
  function Lines(content: string): (lines: seq<string>)
    ensures |lines| == multiset(content)['\n'] + 1
    ensures forall i :: 0 <= i < |lines| ==> '\n' !in lines[i]
  {
    SplitPieces(NormalizeNewlines(content), '\n');
    Split(NormalizeNewlines(content), '\n')
  }

  /** `a` and `b` have the same number of pieces, and each piece of `a` is the one of `b`, perhaps with a CR after it. */
  predicate SameUpToCR(a: seq<string>, b: seq<string>) {
    |a| == |b| && forall i :: 0 <= i < |a| ==> a[i] == b[i] || a[i] == b[i] + ['\r']
  }

  /** `w` without its trailing CR, if it ends with one. */
  function StripCR(w: string): (r: string)
    ensures r == w || w == r + ['\r']
  {
    if |w| > 0 && w[|w| - 1] == '\r' then w[..|w| - 1] else w
  }

  /**
   * The pieces `b` are the pieces `a` with the CR LF pairs read as LF: every
   * piece but the last loses one trailing CR, if it has one, and the last
   * piece, which no LF follows, is unchanged.
   */
  predicate DropsCR(a: seq<string>, b: seq<string>) {
    && |a| == |b| && |a| >= 1
    && (forall i :: 0 <= i < |a| - 1 ==> b[i] == StripCR(a[i]))
    && b[|a| - 1] == a[|a| - 1]
  }

  /**
   * What `replace(/\r\n/g, '\n')` does, piece by piece: split at LF before
   * and after, each piece that an LF ends loses one CR before that LF, and
   * the last piece is kept as it is.
   */
  lemma {:induction false} NormalizeNewlinesMeaning(s: string)
    ensures DropsCR(Split(s, '\n'), Split(NormalizeNewlines(s), '\n'))
    decreases |s|
  {
    if |s| >= 2 && s[0] == '\r' && s[1] == '\n' {
      NormalizeNewlinesMeaning(s[2..]);
      SplitAtCRLF(s);
      NormalizedAtCRLF(s);
      DropsCRFront(Split(s[2..], '\n'), Split(NormalizeNewlines(s[2..]), '\n'));
    } else if |s| > 0 {
      NormalizeNewlinesMeaning(s[1..]);
      var n := NormalizeNewlines(s);
      assert n == [s[0]] + NormalizeNewlines(s[1..]);
      assert n[0] == s[0] && n[1..] == NormalizeNewlines(s[1..]);
      var a, b := Split(s[1..], '\n'), Split(NormalizeNewlines(s[1..]), '\n');
      if s[0] == '\n' {
        DropsCRNewline(a, b);
      } else {
        SplitStartsEmpty(s[1..]);
        DropsCRCons(s[0], a, b);
      }
    } else {
      assert StripCR("") == "";
    }
  }

  /** A split whose first piece is empty and is not the only piece starts at a separator. */
  lemma {:induction false} SplitStartsEmpty(s: string)
    ensures |Split(s, '\n')| > 1 && Split(s, '\n')[0] == "" ==> |s| > 0 && s[0] == '\n'
  {
  }

  /** A character put in front of a piece stays in front after the trailing CR goes. */
  lemma {:induction false} StripCRCons(c: char, w: string)
    requires w == "" ==> c != '\r'
    ensures StripCR([c] + w) == [c] + StripCR(w)
  {
    var cw := [c] + w;
    if |w| > 0 {
      assert cw[|cw| - 1] == w[|w| - 1];
      assert cw[..|cw| - 1] == [c] + w[..|w| - 1];
    }
  }

  /** A character other than LF joins the first piece on both sides. */
  lemma {:induction false} DropsCRCons(c: char, a: seq<string>, b: seq<string>)
    requires DropsCR(a, b)
    requires |a| > 1 && a[0] == "" ==> c != '\r'
    ensures DropsCR([[c] + a[0]] + a[1..], [[c] + b[0]] + b[1..])
  {
    var l, r := [[c] + a[0]] + a[1..], [[c] + b[0]] + b[1..];
    if |a| > 1 {
      StripCRCons(c, a[0]);
    }
    forall i | 1 <= i < |l| - 1 ensures r[i] == StripCR(l[i]) {
      assert l[i] == a[i] && r[i] == b[i];
    }
  }

  /** An LF starts a new empty piece on both sides. */
  lemma {:induction false} DropsCRNewline(a: seq<string>, b: seq<string>)
    requires DropsCR(a, b)
    ensures DropsCR([""] + a, [""] + b)
  {
    var l, r := [""] + a, [""] + b;
    assert StripCR("") == "";
    forall i | 1 <= i < |l| - 1 ensures r[i] == StripCR(l[i]) {
      assert l[i] == a[i - 1] && r[i] == b[i - 1];
    }
  }

  /** A CR LF pair read as LF: the raw pieces start with a lone CR, the normalized ones with an empty piece. */
  lemma {:induction false} DropsCRFront(a: seq<string>, b: seq<string>)
    requires DropsCR(a, b)
    ensures DropsCR([['\r']] + a, [""] + b)
  {
    var l, r := [['\r']] + a, [""] + b;
    assert StripCR(['\r']) == "";
    forall i | 1 <= i < |l| - 1 ensures r[i] == StripCR(l[i]) {
      assert l[i] == a[i - 1] && r[i] == b[i - 1];
    }
  }

  /** Pieces related by `DropsCR` agree up to a trailing CR. */
  lemma {:induction false} DropsCRSame(a: seq<string>, b: seq<string>)
    requires DropsCR(a, b)
    ensures SameUpToCR(a, b)
  {
    forall i | 0 <= i < |a| ensures a[i] == b[i] || a[i] == b[i] + ['\r'] {
      if i < |a| - 1 {
        assert b[i] == StripCR(a[i]);
      }
    }
  }

  lemma {:induction false} SplitAtCRLF(s: string)
    requires |s| >= 2 && s[0] == '\r' && s[1] == '\n'
    ensures Split(s, '\n') == [['\r']] + Split(s[2..], '\n')
  {
    var rest := s[2..];
    assert s[1..][1..] == rest;
    var r0 := Split(s[1..], '\n');
    assert r0 == [""] + Split(rest, '\n');
    assert Split(s, '\n') == [['\r'] + r0[0]] + r0[1..];
    assert r0[0] == "" && r0[1..] == Split(rest, '\n');
    assert ['\r'] + r0[0] == ['\r'];
  }

  lemma {:induction false} NormalizedAtCRLF(s: string)
    requires |s| >= 2 && s[0] == '\r' && s[1] == '\n'
    ensures Split(NormalizeNewlines(s), '\n') == [""] + Split(NormalizeNewlines(s[2..]), '\n')
  {
    var n := NormalizeNewlines(s);
    assert n == ['\n'] + NormalizeNewlines(s[2..]);
    assert n[1..] == NormalizeNewlines(s[2..]);
  }

  /** Pieces that agree up to a trailing CR trim to the same text, so they classify alike. */
  lemma {:induction false} NewlineStyleIrrelevant(content: string)
    ensures Directives(content) == ClassifyAll(Split(content, '\n'))
  {
    NormalizeNewlinesMeaning(content);
    DropsCRSame(Split(content, '\n'), Lines(content));
    ClassifyUpToCR(Split(content, '\n'), Lines(content));
  }

  lemma {:induction false} ClassifyUpToCR(a: seq<string>, b: seq<string>)
    requires SameUpToCR(a, b)
    ensures ClassifyAll(a) == ClassifyAll(b)
  {
    if |a| > 0 {
      assert SameUpToCR(a[1..], b[1..]) by {
        forall i | 0 <= i < |a[1..]| ensures a[1..][i] == b[1..][i] || a[1..][i] == b[1..][i] + ['\r'] {
          assert a[1..][i] == a[i + 1] && b[1..][i] == b[i + 1];
        }
      }
      ClassifyUpToCR(a[1..], b[1..]);
      if a[0] != b[0] {
        TrimTrailingSpace(b[0], '\r');
      }
    }
  }

  // ----- the fold -----

  datatype State = State(agent: Option<string>, blocked: set<string>, hasSitemaps: bool, hasCrawlDelay: bool)

  const Start := State(None, {}, false, false)

  /** JavaScript truthiness of `currentAgent`: set, and not the empty string. */
  predicate AgentSet(agent: Option<string>) {
    agent.Some? && agent.value != ""
  }

  /** The registry keys a full-site `Disallow` under `agent` blocks. */
  function Targets(reg: seq<Bot>, agent: string): (r: set<string>)
    ensures r <= Names(reg)
  {
    set b | b in reg && (agent == "*" || Lower(agent) == Lower(b.name)) :: b.name
  }

  /** What a line is, by the case-insensitive prefix of its trimmed text. */
  datatype Line = Skip | UserAgent(agent: string) | Disallow(path: string) | Sitemap | CrawlDelay | Other

  /** What a line is; the kind depends on the line only through its trimmed text. */
  function Classify(line: string): Line {
    ClassifyTrimmed(Trim(line))
  }

  /**
   * The prefix tests of `parseRobotsTxt`, in their order, on the trimmed line
   * `t`. The value after `User-agent:` and the path after `Disallow:` are
   * trimmed again.
   */
  function ClassifyTrimmed(t: string): (c: Line)
    ensures c == Skip <==> t == [] || t[0] == '#'
    ensures c.UserAgent? <==> |t| >= 11 && Lower(t[..11]) == "user-agent:"
    ensures c.UserAgent? ==> c.agent == Trim(t[11..])
    ensures c.Disallow? <==> |t| >= 9 && Lower(t[..9]) == "disallow:"
    ensures c.Disallow? ==> c.path == Trim(t[9..])
    ensures c == Sitemap <==> |t| >= 8 && Lower(t[..8]) == "sitemap:"
    ensures c == CrawlDelay <==> |t| >= 12 && Lower(t[..12]) == "crawl-delay:"
  {
    PrefixTest(t, "user-agent:");
    PrefixTest(t, "disallow:");
    PrefixTest(t, "sitemap:");
    PrefixTest(t, "crawl-delay:");
    if t == [] || t[0] == '#' then Skip
    else
      var lower := Lower(t);
      if StartsWith(lower, "user-agent:") then UserAgent(Trim(t[11..]))
      else if StartsWith(lower, "disallow:") then Disallow(Trim(t[9..]))
      else if StartsWith(lower, "sitemap:") then Sitemap
      else if StartsWith(lower, "crawl-delay:") then CrawlDelay
      else Other
  }

  /**
   * The test `Lower(t)` starts with `p` reads only the first `|p|`
   * characters of `t`, and a text that passes it starts with a character
   * that lower-cases to `p[0]`.
   */
  lemma {:induction false} PrefixTest(t: string, p: string)
    requires |p| > 0
    ensures StartsWith(Lower(t), p) <==> |t| >= |p| && Lower(t[..|p|]) == p
    ensures |t| >= |p| && Lower(t[..|p|]) == p ==> LowerChar(t[0]) == p[0]
  {
    if |t| >= |p| {
      assert Lower(t)[..|p|] == Lower(t[..|p|]);
      assert Lower(t[..|p|])[0] == LowerChar(t[0]);
    }
  }

  /** Every line of the text, classified. */
  function ClassifyAll(lines: seq<string>): (cs: seq<Line>)
    ensures |cs| == |lines|
  {
    if |lines| == 0 then [] else [Classify(lines[0])] + ClassifyAll(lines[1..])
  }

  /** The lines of a robots.txt text, classified. */
  function Directives(content: string): seq<Line> {
    ClassifyAll(Lines(content))
  }

  lemma {:induction false} ClassifyAllCons(x: string, xs: seq<string>)
    ensures ClassifyAll([x] + xs) == [Classify(x)] + ClassifyAll(xs)
  {
    assert ([x] + xs)[1..] == xs;
  }

  /**
   * One line of the `forEach` in `parseRobotsTxt`. A `Disallow:` line met while
   * no agent is set falls through, in the source, to the `sitemap:` and
   * `crawl-delay:` tests, which it cannot pass; it changes nothing here either.
   */
  function Step(reg: seq<Bot>, st: State, c: Line): (r: State)
    ensures r.agent == if c.UserAgent? then Some(c.agent) else st.agent
    ensures r.hasSitemaps <==> st.hasSitemaps || c == Sitemap
    ensures r.hasCrawlDelay <==> st.hasCrawlDelay || c == CrawlDelay
    ensures st.blocked <= r.blocked
  {
    match c
    case UserAgent(a) => st.(agent := Some(a))
    case Disallow(path) =>
      if AgentSet(st.agent) && path == "/" then st.(blocked := st.blocked + Targets(reg, st.agent.value)) else st
    case Sitemap => st.(hasSitemaps := true)
    case CrawlDelay => st.(hasCrawlDelay := true)
    case _ => st
  }

  /** The whole `forEach`, a left fold of `Step` over the lines. */
  function Run(reg: seq<Bot>, st: State, cs: seq<Line>): (r: State)
    ensures st.blocked <= r.blocked
    ensures st.hasSitemaps ==> r.hasSitemaps
    ensures st.hasCrawlDelay ==> r.hasCrawlDelay
    decreases |cs|
  {
    if |cs| == 0 then st else Run(reg, Step(reg, st, cs[0]), cs[1..])
  }

  // ----- the analysis record -----

  datatype Analysis = Analysis(
    country: string,
    outlet: string,
    robotsExists: bool,
    blocksAI: bool,
    aiBotsBlockedCount: nat,
    blockingStrategy: string,
    blockedBotsList: seq<string>,
    hasSitemaps: bool,
    hasCrawlDelay: bool)

  /** The result for a missing or blank robots.txt. */
  function Empty(country: string, outlet: string): Analysis {
    Analysis(country, outlet, false, false, 0, "None", [], false, false)
  }

  const Tiers: seq<string> := ["None", "Basic", "Moderate", "Comprehensive", "Extensive"]

  /** The strategy tier for a count of blocked bots: thresholds 20, 10, 3 and 0. */
  function Strategy(count: nat): (tier: string)
    ensures tier in Tiers
    ensures tier == "None" <==> count == 0
  {
    if count > 20 then "Extensive"
    else if count > 10 then "Comprehensive"
    else if count > 3 then "Moderate"
    else if count > 0 then "Basic"
    else "None"
  }

  /** Position of a tier in the ordinal scale `Tiers`. */
  function Rank(tier: string): nat {
    if tier == "Extensive" then 4
    else if tier == "Comprehensive" then 3
    else if tier == "Moderate" then 2
    else if tier == "Basic" then 1
    else 0
  }

  /** Blocking more bots never lowers the tier, and each tier covers a fixed band of counts. */
  lemma {:induction false} StrategyMonotone(m: nat, n: nat)
    requires m <= n
    ensures Rank(Strategy(m)) <= Rank(Strategy(n))
    ensures Tiers[Rank(Strategy(n))] == Strategy(n)
    ensures Strategy(n) == "Extensive" <==> n >= 21
    ensures Strategy(n) == "Comprehensive" <==> 11 <= n <= 20
    ensures Strategy(n) == "Moderate" <==> 4 <= n <= 10
    ensures Strategy(n) == "Basic" <==> 1 <= n <= 3
  {
  }

  /**
   * `Array.from(blockedBots)`: the blocked names, each once, enumerated in
   * registry order (the order is irrelevant, as the list is sorted next).
   */
  function Enumerate(reg: seq<Bot>, blocked: set<string>): (names: seq<string>)
    ensures Distinct(names)
    ensures forall n :: n in names <==> n in blocked && n in Names(reg)
  {
    if |reg| == 0 then []
    else
      var init := reg[..|reg| - 1];
      var rest := Enumerate(init, blocked);
      var n := reg[|reg| - 1].name;
      assert Names(reg) == Names(init) + {n} by {
        assert reg == init + [reg[|reg| - 1]];
      }
      if n in blocked && n !in rest then rest + [n] else rest
  }

  /**
   * The record `parseRobotsTxt` returns once the lines are read: the count of
   * blocked bots, its tier, and the blocked names sorted.
   */
  function Report(reg: seq<Bot>, st: State, country: string, outlet: string): (r: Analysis)
    requires st.blocked <= Names(reg)
    ensures r.country == country && r.outlet == outlet && r.robotsExists
    ensures r.aiBotsBlockedCount == |r.blockedBotsList| == |st.blocked| <= |reg|
    ensures r.blocksAI <==> r.aiBotsBlockedCount > 0
    ensures r.blockingStrategy == Strategy(r.aiBotsBlockedCount)
    ensures StrictlySorted(r.blockedBotsList)
    ensures forall n :: n in r.blockedBotsList <==> n in st.blocked
    ensures r.hasSitemaps == st.hasSitemaps && r.hasCrawlDelay == st.hasCrawlDelay
  {
    var names := Enumerate(reg, st.blocked);
    var list := SortStrings(names);
    DistinctMultiset(names);
    SortedDistinct(list);
    DistinctMultiset(list);
    assert forall n :: n in list <==> n in st.blocked by {
      forall n ensures n in list <==> n in names {
        assert n in list <==> n in multiset(list);
      }
    }
    assert (set n | n in list) == st.blocked;
    NamesBound(reg);
    assert |st.blocked| <= |reg| by { SubsetCard(st.blocked, Names(reg)); }
    var count := |st.blocked|;
    Analysis(country, outlet, true, count > 0, count, Strategy(count), list, st.hasSitemaps, st.hasCrawlDelay)
  }

  /** `parseRobotsTxt` for one site. */
  function ParseRobotsTxt(reg: seq<Bot>, content: string, country: string, outlet: string): (r: Analysis)
    ensures r.country == country && r.outlet == outlet
    ensures r.robotsExists <==> !AllSpace(content)
    ensures !r.robotsExists ==> r == Empty(country, outlet)
    ensures r.aiBotsBlockedCount == |r.blockedBotsList| <= |reg|
    ensures r.blocksAI <==> r.aiBotsBlockedCount > 0
    ensures r.blockingStrategy == Strategy(r.aiBotsBlockedCount)
    ensures StrictlySorted(r.blockedBotsList)
    ensures forall n :: n in r.blockedBotsList ==> n in Names(reg)
  {
    TrimEmptyIffAllSpace(content);
    if Trim(content) == [] then Empty(country, outlet)
    else
      RunBlocksOnlyRegistry(reg, Start, Directives(content));
      Report(reg, Run(reg, Start, Directives(content)), country, outlet)
  }

  lemma {:induction false} SubsetCard(a: set<string>, b: set<string>)
    requires a <= b
    ensures |a| <= |b|
  {
    assert b == a + (b - a);
  }

  lemma {:induction false} NamesBound(reg: seq<Bot>)
    ensures |Names(reg)| <= |reg|
  {
    if |reg| > 0 {
      NamesBound(reg[1..]);
      assert reg == [reg[0]] + reg[1..];
      assert Names(reg) == {reg[0].name} + Names(reg[1..]);
    }
  }

  // ----- properties of the fold -----

  lemma {:induction false} StepGrows(reg: seq<Bot>, st: State, c: Line)
    ensures st.blocked <= Step(reg, st, c).blocked
    ensures Step(reg, st, c).blocked - st.blocked <= Names(reg)
  {
  }

  /** The blocked set only grows, and only by registry keys. */
  lemma {:induction false} RunBlocksOnlyRegistry(reg: seq<Bot>, st: State, cs: seq<Line>)
    ensures st.blocked <= Run(reg, st, cs).blocked
    ensures Run(reg, st, cs).blocked - st.blocked <= Names(reg)
    decreases |cs|
  {
    if |cs| > 0 {
      StepGrows(reg, st, cs[0]);
      RunBlocksOnlyRegistry(reg, Step(reg, st, cs[0]), cs[1..]);
    }
  }

  lemma {:induction false} RunAppend(reg: seq<Bot>, st: State, xs: seq<Line>, x: Line)
    ensures Run(reg, st, xs + [x]) == Step(reg, Run(reg, st, xs), x)
    decreases |xs|
  {
    if |xs| > 0 {
      assert (xs + [x])[1..] == xs[1..] + [x];
      RunAppend(reg, Step(reg, st, xs[0]), xs[1..], x);
    }
  }

  /** Blank and comment lines: empty once trimmed, or starting with `#`. */
  predicate Ignorable(line: string) {
    var t := Trim(line);
    t == [] || t[0] == '#'
  }

  lemma {:induction false} IgnorableIsSkip(line: string)
    ensures Ignorable(line) <==> Classify(line) == Skip
  {
  }

  /** The lines that are neither blank nor comments, in order. */
  function Significant(lines: seq<string>): (r: seq<string>)
    ensures forall i :: 0 <= i < |r| ==> !Ignorable(r[i])
    ensures |r| <= |lines|
  {
    if |lines| == 0 then []
    else if Ignorable(lines[0]) then Significant(lines[1..])
    else [lines[0]] + Significant(lines[1..])
  }

  /** Dropping all blank and comment lines does not change the outcome. */
  lemma {:induction false} IgnorableLinesChangeNothing(reg: seq<Bot>, st: State, lines: seq<string>)
    ensures Run(reg, st, ClassifyAll(Significant(lines))) == Run(reg, st, ClassifyAll(lines))
    decreases |lines|
  {
    if |lines| > 0 {
      var c := Classify(lines[0]);
      IgnorableIsSkip(lines[0]);
      var tail := Significant(lines[1..]);
      IgnorableLinesChangeNothing(reg, Step(reg, st, c), lines[1..]);
      assert [lines[0]] + lines[1..] == lines;
      ClassifyAllCons(lines[0], lines[1..]);
      assert Run(reg, st, ClassifyAll(lines)) == Run(reg, Step(reg, st, c), ClassifyAll(lines[1..]));
      if Ignorable(lines[0]) {
        assert Significant(lines) == tail;
        assert Step(reg, st, c) == st;
      } else {
        assert Significant(lines) == [lines[0]] + tail;
        ClassifyAllCons(lines[0], tail);
      }
    }
  }

  /** Registry keys equal ignoring case are blocked together by a `Disallow: /` under either name. */
  lemma {:induction false} CaseVariantsBlockedTogether(reg: seq<Bot>, i: nat, j: nat, st: State)
    requires i < |reg| && j < |reg|
    requires st.agent == Some(reg[i].name) && reg[i].name != ""
    requires Lower(reg[i].name) == Lower(reg[j].name)
    ensures reg[i].name in Step(reg, st, Disallow("/")).blocked
    ensures reg[j].name in Step(reg, st, Disallow("/")).blocked
  {
    assert reg[i] in reg && reg[j] in reg;
  }

  /**
   * `User-agent: *` followed by `Disallow: /` blocks every one of the 34
   * registry names, whatever was read before, and so reaches the top tier.
   */
  lemma {:induction false} WildcardBlocksAll(st: State, country: string, outlet: string)
    requires st.blocked <= Names(AiBots)
    ensures Run(AiBots, st, [UserAgent("*"), Disallow("/")]).blocked == Names(AiBots)
    ensures Report(AiBots, Run(AiBots, st, [UserAgent("*"), Disallow("/")]), country, outlet).aiBotsBlockedCount == 34
    ensures Report(AiBots, Run(AiBots, st, [UserAgent("*"), Disallow("/")]), country, outlet).blockingStrategy == "Extensive"
  {
    var cs := [UserAgent("*"), Disallow("/")];
    var mid := Step(AiBots, st, UserAgent("*"));
    assert Run(AiBots, st, cs) == Run(AiBots, mid, cs[1..]);
    assert Run(AiBots, mid, cs[1..]) == Run(AiBots, Step(AiBots, mid, Disallow("/")), []);
    DisallowRule(AiBots, mid, Disallow("/"));
    AiBotsNames();
  }

  /** Which keys an agent names: every key for `*`, otherwise the keys equal to it ignoring case. */
  lemma {:induction false} TargetsMeaning(reg: seq<Bot>, agent: string, n: string)
    ensures agent == "*" ==> (n in Targets(reg, agent) <==> n in Names(reg))
    ensures agent != "*" ==> (n in Targets(reg, agent) <==> n in Names(reg) && Lower(n) == Lower(agent))
    ensures agent != "*" ==> (n in Targets(reg, agent) <==> n in Names(reg) && EqualIgnoringCase(n, agent))
  {
    LowerEqualIff(n, agent);
  }

  /**
   * The `Disallow` rule, for one line: the blocked set changes only on a
   * `Disallow: /` line under a set (non-empty) agent, and then grows by exactly
   * the keys that agent names.
   */
  lemma {:induction false} DisallowRule(reg: seq<Bot>, st: State, c: Line)
    ensures Step(reg, st, c).blocked != st.blocked ==> c == Disallow("/") && AgentSet(st.agent)
    ensures c == Disallow("/") && AgentSet(st.agent) ==>
      Step(reg, st, c).blocked == st.blocked + Targets(reg, st.agent.value)
    ensures c == Disallow("/") && st.agent == Some("*") ==> Step(reg, st, c).blocked == st.blocked + Names(reg)
  {
    if c == Disallow("/") && st.agent == Some("*") {
      forall n ensures n in Targets(reg, "*") <==> n in Names(reg) { TargetsMeaning(reg, "*", n); }
    }
  }

  // ----- a declarative reading of the same rules -----

  /** The value of the last `User-agent:` line among the first `k` lines, if any. */
  function AgentAt(cs: seq<Line>, k: nat): Option<string>
    requires k <= |cs|
  {
    if k == 0 then None
    else if cs[k - 1].UserAgent? then Some(cs[k - 1].agent)
    else AgentAt(cs, k - 1)
  }

  /** Line `i` is a full-site disallow under a set agent that names `name`. */
  predicate BlocksAt(reg: seq<Bot>, cs: seq<Line>, i: int, name: string) {
    && 0 <= i < |cs|
    && cs[i] == Disallow("/")
    && AgentSet(AgentAt(cs, i))
    && name in Targets(reg, AgentAt(cs, i).value)
  }

  predicate MentionedBefore(cs: seq<Line>, k: nat, kind: Line)
    requires k <= |cs|
  {
    exists i :: 0 <= i < k && cs[i] == kind
  }

  function BlockedBefore(reg: seq<Bot>, cs: seq<Line>, k: nat): set<string> {
    set n | n in Names(reg) && exists i :: 0 <= i < k && BlocksAt(reg, cs, i, n)
  }

  /** What the fold has computed after `k` lines, stated without the fold. */
  lemma {:induction false} RunPrefix(reg: seq<Bot>, cs: seq<Line>, k: nat)
    requires k <= |cs|
    ensures Run(reg, Start, cs[..k]).agent == AgentAt(cs, k)
    ensures Run(reg, Start, cs[..k]).blocked == BlockedBefore(reg, cs, k)
    ensures Run(reg, Start, cs[..k]).hasSitemaps == MentionedBefore(cs, k, Sitemap)
    ensures Run(reg, Start, cs[..k]).hasCrawlDelay == MentionedBefore(cs, k, CrawlDelay)
  {
    if k == 0 {
      assert BlockedBefore(reg, cs, 0) == {};
    } else {
      var j := k - 1;
      RunPrefix(reg, cs, j);
      assert cs[..k] == cs[..j] + [cs[j]];
      RunAppend(reg, Start, cs[..j], cs[j]);
      var st := Run(reg, Start, cs[..j]);
      var r := Step(reg, st, cs[j]);
      assert Run(reg, Start, cs[..k]) == r;
      // only the new line can add a mention or a block
      assert MentionedBefore(cs, k, Sitemap) == (MentionedBefore(cs, j, Sitemap) || cs[j] == Sitemap);
      assert MentionedBefore(cs, k, CrawlDelay) == (MentionedBefore(cs, j, CrawlDelay) || cs[j] == CrawlDelay);
      var added := if cs[j] == Disallow("/") && AgentSet(st.agent) then Targets(reg, st.agent.value) else {};
      assert r.blocked == st.blocked + added;
      assert BlockedBefore(reg, cs, k) == BlockedBefore(reg, cs, j) + added by {
        forall n ensures n in BlockedBefore(reg, cs, k) <==> n in BlockedBefore(reg, cs, j) + added {
          if n in BlockedBefore(reg, cs, k) {
            var i :| 0 <= i < k && BlocksAt(reg, cs, i, n);
            if i == j { assert n in added; }
          }
          if n in added {
            assert BlocksAt(reg, cs, j, n);
          }
        }
      }
    }
  }

  /** The declarative meaning of the whole fold. */
  lemma {:induction false} RunMeaning(reg: seq<Bot>, cs: seq<Line>)
    ensures Run(reg, Start, cs).agent == AgentAt(cs, |cs|)
    ensures Run(reg, Start, cs).blocked == BlockedBefore(reg, cs, |cs|)
    ensures Run(reg, Start, cs).hasSitemaps == MentionedBefore(cs, |cs|, Sitemap)
    ensures Run(reg, Start, cs).hasCrawlDelay == MentionedBefore(cs, |cs|, CrawlDelay)
  {
    RunPrefix(reg, cs, |cs|);
    assert cs[..|cs|] == cs;
  }

  /** Without any `User-agent:` line nothing is blocked, whatever the `Disallow:` lines say. */
  lemma {:induction false} NoAgentNoBlock(reg: seq<Bot>, cs: seq<Line>)
    requires forall i :: 0 <= i < |cs| ==> !cs[i].UserAgent?
    ensures Run(reg, Start, cs).blocked == {}
  {
    RunMeaning(reg, cs);
    forall i | 0 <= i <= |cs| ensures AgentAt(cs, i) == None {
      AgentAtNone(cs, i);
    }
  }

  lemma {:induction false} AgentAtNone(cs: seq<Line>, k: nat)
    requires k <= |cs|
    requires forall i :: 0 <= i < |cs| ==> !cs[i].UserAgent?
    ensures AgentAt(cs, k) == None
  {
    if k > 0 {
      AgentAtNone(cs, k - 1);
    }
  }

  /** The record built from the classified lines `cs`, in terms of the declarative reading. */
  lemma {:induction false} ReportMeaning(reg: seq<Bot>, cs: seq<Line>, country: string, outlet: string)
    requires Run(reg, Start, cs).blocked <= Names(reg)
    ensures var r := Report(reg, Run(reg, Start, cs), country, outlet);
      && (forall n :: n in r.blockedBotsList <==> n in Names(reg) && exists i :: BlocksAt(reg, cs, i, n))
      && (r.hasSitemaps <==> exists i :: 0 <= i < |cs| && cs[i] == Sitemap)
      && (r.hasCrawlDelay <==> exists i :: 0 <= i < |cs| && cs[i] == CrawlDelay)
  {
    RunMeaning(reg, cs);
    var st := Run(reg, Start, cs);
    forall n | n in Names(reg) && exists i :: BlocksAt(reg, cs, i, n)
      ensures n in st.blocked
    {
      var i :| BlocksAt(reg, cs, i, n);
      assert 0 <= i < |cs|;
    }
  }

  /**
   * For non-blank content, a bot is listed exactly when some `Disallow: /`
   * line falls under an agent naming it; the sitemap and crawl-delay flags say
   * whether such a directive appears anywhere.
   */
  lemma {:induction false} ParseRobotsTxtMeaning(reg: seq<Bot>, content: string, country: string, outlet: string)
    requires !AllSpace(content)
    ensures forall n :: n in ParseRobotsTxt(reg, content, country, outlet).blockedBotsList <==>
      n in Names(reg) && exists i :: BlocksAt(reg, Directives(content), i, n)
    ensures ParseRobotsTxt(reg, content, country, outlet).hasSitemaps <==>
      exists i :: 0 <= i < |Directives(content)| && Directives(content)[i] == Sitemap
    ensures ParseRobotsTxt(reg, content, country, outlet).hasCrawlDelay <==>
      exists i :: 0 <= i < |Directives(content)| && Directives(content)[i] == CrawlDelay
  {
    TrimEmptyIffAllSpace(content);
    RunBlocksOnlyRegistry(reg, Start, Directives(content));
    ReportMeaning(reg, Directives(content), country, outlet);
  }
}

=== FILE: summary.dfy ===
/**
 * The cohort summary of the scanner (`generateSummary`): site counts over
 * the analysis records, and among the sites that block AI crawlers a tally
 * per registry bot and a tally per bot category, where a site counts once
 * for each category it blocks at least one bot of. The bot tallies give the
 * ten most blocked bots; the category tallies are listed in full; both are
 * stable-sorted by descending count.
 */
module Cohort {
  import opened Options
  import opened Text
  import opened Registry
  import opened Robots
  import opened Tally

  datatype BotCount = BotCount(bot: string, count: nat, owner: string, category: string)

  datatype CategoryCount = CategoryCount(category: string, count: nat)

  datatype Summary = Summary(
    total: nat,
    sitesWithRobots: nat,
    sitesBlockingAICount: nat,
    sitesWithoutRobots: nat,
    sitesWithCrawlDelay: nat,
    sitesWithSitemaps: nat,
    totalBlockedBotsCount: nat,
    topBlockedBots: seq<BotCount>,
    categoryAnalysis: seq<CategoryCount>)

  /** The flags `generateSummary` filters the records by. */
  datatype Flag = RobotsExists | BlocksAI | HasCrawlDelay | HasSitemaps

  predicate Has(a: Analysis, f: Flag) {
    match f
    case RobotsExists => a.robotsExists
    case BlocksAI => a.blocksAI
    case HasCrawlDelay => a.hasCrawlDelay
    case HasSitemaps => a.hasSitemaps
  }

  /** `data.filter(d => d.<flag>)`. */
  function Where(data: seq<Analysis>, f: Flag): (r: seq<Analysis>)
    ensures |r| <= |data|
    ensures forall a :: a in r <==> a in data && Has(a, f)
  {
    if |data| == 0 then []
    else if Has(data[0], f) then [data[0]] + Where(data[1..], f)
    else Where(data[1..], f)
  }

  /** The number of positions of `data` holding a record with flag `f`. */
  function FlagCount(data: seq<Analysis>, f: Flag): nat {
    |set i | 0 <= i < |data| && Has(data[i], f)|
  }

  /** The positions from `k` on holding a record with flag `f`. */
  function FlagsFrom(data: seq<Analysis>, f: Flag, k: nat): set<int> {
    set i | k <= i < |data| && Has(data[i], f)
  }

  lemma {:induction false} FlagsFromStep(data: seq<Analysis>, f: Flag, k: nat)
    requires k < |data|
    ensures k !in FlagsFrom(data, f, k + 1)
    ensures FlagsFrom(data, f, k) == (if Has(data[k], f) then {k} else {}) + FlagsFrom(data, f, k + 1)
  {
  }

  /** From position `k` on, the filter keeps one record per position whose record has the flag. */
  lemma {:induction false} WhereFrom(data: seq<Analysis>, f: Flag, k: nat)
    requires k <= |data|
    ensures |Where(data[k..], f)| == |FlagsFrom(data, f, k)|
    decreases |data| - k
  {
    if k == |data| {
      assert FlagsFrom(data, f, k) == {};
    } else {
      WhereFrom(data, f, k + 1);
      FlagsFromStep(data, f, k);
      assert data[k..][0] == data[k] && data[k..][1..] == data[k + 1..];
    }
  }

  /**
   * The filter is as long as the number of records with the flag, counted
   * by position, so two equal records count twice.
   */
  lemma {:induction false} WhereCount(data: seq<Analysis>, f: Flag)
    ensures |Where(data, f)| == FlagCount(data, f)
  {
    WhereFrom(data, f, 0);
    assert data[0..] == data;
    assert FlagsFrom(data, f, 0) == set i | 0 <= i < |data| && Has(data[i], f);
  }

  /** The filter keeps every copy of a record with the flag and none of the others. */
  lemma {:induction false} WhereMultiset(data: seq<Analysis>, f: Flag, a: Analysis)
    ensures multiset(Where(data, f))[a] == if Has(a, f) then multiset(data)[a] else 0
    decreases |data|
  {
    if |data| > 0 {
      WhereMultiset(data[1..], f, a);
      assert data == [data[0]] + data[1..];
      assert multiset(data) == multiset{data[0]} + multiset(data[1..]);
      if Has(data[0], f) {
        assert multiset(Where(data, f)) == multiset{data[0]} + multiset(Where(data[1..], f));
      }
    }
  }

  /** `reduce((sum, site) => sum + site.aiBotsBlockedCount, 0)`. */
  function SumBlocked(sites: seq<Analysis>): nat {
    if |sites| == 0 then 0 else sites[0].aiBotsBlockedCount + SumBlocked(sites[1..])
  }

  // ----- the per-bot tally -----

  /**
   * One blocking site's list: each name the registry knows is counted under
   * its registry entry (`botCounts[botName].count++`); unknown names are
   * skipped. The entry carries the bot's owner and category, as the source's
   * record does.
   */
  function TallyNames(reg: seq<Bot>, acc: seq<Entry<Bot>>, names: seq<string>): (r: seq<Entry<Bot>>)
    ensures Grows(acc, r)
    decreases |names|
  {
    if |names| == 0 then acc
    else
      match Lookup(reg, names[0])
      case None => TallyNames(reg, acc, names[1..])
      case Some(b) =>
        BumpShape(acc, b);
        TallyNames(reg, Bump(acc, b), names[1..])
  }

  /** `botCounts`, filled site by site; bots already counted keep their place in the key order. */
  function TallyBots(reg: seq<Bot>, acc: seq<Entry<Bot>>, sites: seq<Analysis>): (r: seq<Entry<Bot>>)
    ensures Grows(acc, r)
    decreases |sites|
  {
    if |sites| == 0 then acc
    else TallyBots(reg, TallyNames(reg, acc, sites[0].blockedBotsList), sites[1..])
  }

  // ----- the per-category tally -----

  /** The category of a name the registry knows. */
  function CategoryOf(reg: seq<Bot>, name: string): Option<string> {
    match Lookup(reg, name)
    case None => None
    case Some(b) => Some(b.category)
  }

  /**
   * `siteCategories`: a `Set` filled while walking one site's list, so each
   * category once, in first-seen order.
   */
  function SiteCategories(reg: seq<Bot>, acc: seq<string>, names: seq<string>): (cats: seq<string>)
    requires Distinct(acc)
    ensures Distinct(cats)
    ensures forall c :: c in cats <==> c in acc || exists i :: 0 <= i < |names| && CategoryOf(reg, names[i]) == Some(c)
    decreases |names|
  {
    if |names| == 0 then acc
    else
      var next := match CategoryOf(reg, names[0])
        case Some(c) => if c in acc then acc else acc + [c]
        case None => acc;
      assert Distinct(next);
      var cats := SiteCategories(reg, next, names[1..]);
      assert forall c :: c in cats <==> c in acc || exists i :: 0 <= i < |names| && CategoryOf(reg, names[i]) == Some(c) by {
        forall c ensures c in cats <==> c in acc || exists i :: 0 <= i < |names| && CategoryOf(reg, names[i]) == Some(c) {
          if exists i :: 0 <= i < |names[1..]| && CategoryOf(reg, names[1..][i]) == Some(c) {
            var i :| 0 <= i < |names[1..]| && CategoryOf(reg, names[1..][i]) == Some(c);
            assert names[i + 1] == names[1..][i];
          }
          if exists i :: 0 <= i < |names| && CategoryOf(reg, names[i]) == Some(c) {
            var i :| 0 <= i < |names| && CategoryOf(reg, names[i]) == Some(c);
            if i > 0 {
              assert names[1..][i - 1] == names[i];
            }
          }
        }
      }
      cats
  }

  /** `siteCategories.forEach(category => categoryCounts[category] = ... + 1)`, site by site. */
  function TallyCategories(reg: seq<Bot>, acc: seq<Entry<string>>, sites: seq<Analysis>): (r: seq<Entry<string>>)
    ensures Grows(acc, r)
    decreases |sites|
  {
    if |sites| == 0 then acc
    else TallyCategories(reg, BumpAll(acc, SiteCategories(reg, [], sites[0].blockedBotsList)), sites[1..])
  }

  // ----- the summary -----

  function ToBotCount(e: Entry<Bot>): BotCount {
    BotCount(e.key.name, e.count, e.key.owner, e.key.category)
  }

  function ToCategoryCount(e: Entry<string>): CategoryCount {
    CategoryCount(e.key, e.count)
  }

  /** `generateSummary`: nothing for an empty cohort. */
  function GenerateSummary(reg: seq<Bot>, data: seq<Analysis>): (r: Option<Summary>)
    ensures r.None? <==> |data| == 0
    ensures r.Some? ==> r.value.total == |data|
    ensures r.Some? ==> r.value.sitesWithRobots + r.value.sitesWithoutRobots == r.value.total
    ensures r.Some? ==> r.value.sitesBlockingAICount <= r.value.total
    ensures r.Some? ==> r.value.sitesWithRobots == FlagCount(data, RobotsExists)
    ensures r.Some? ==> r.value.sitesBlockingAICount == FlagCount(data, BlocksAI)
    ensures r.Some? ==> r.value.sitesWithCrawlDelay == FlagCount(data, HasCrawlDelay)
    ensures r.Some? ==> r.value.sitesWithSitemaps == FlagCount(data, HasSitemaps)
    ensures r.Some? ==> |r.value.topBlockedBots| <= 10
    ensures r.Some? ==> forall i, j :: 0 <= i < j < |r.value.topBlockedBots| ==>
      r.value.topBlockedBots[i].count >= r.value.topBlockedBots[j].count
    ensures r.Some? ==> forall i, j :: 0 <= i < j < |r.value.categoryAnalysis| ==>
      r.value.categoryAnalysis[i].count >= r.value.categoryAnalysis[j].count
  {
    if |data| == 0 then None
    else
      WhereCount(data, RobotsExists);
      WhereCount(data, BlocksAI);
      WhereCount(data, HasCrawlDelay);
      WhereCount(data, HasSitemaps);
      var blocking := Where(data, BlocksAI);
      var withRobots := |Where(data, RobotsExists)|;
      Some(Summary(
        |data|,
        withRobots,
        |blocking|,
        |data| - withRobots,
        |Where(data, HasCrawlDelay)|,
        |Where(data, HasSitemaps)|,
        SumBlocked(blocking),
        TopBots(reg, blocking),
        CategoryRows(reg, blocking)))
  }

  /** `topBlockedBots`: the bot tallies sorted by descending count, first ten. */
  function TopBots(reg: seq<Bot>, blocking: seq<Analysis>): (rows: seq<BotCount>)
    ensures |rows| == if |TallyBots(reg, [], blocking)| <= 10 then |TallyBots(reg, [], blocking)| else 10
    ensures forall i, j :: 0 <= i < j < |rows| ==> rows[i].count >= rows[j].count
  {
    var top := Take(SortByCount(TallyBots(reg, [], blocking)), 10);
    seq(|top|, i requires 0 <= i < |top| => ToBotCount(top[i]))
  }

  /** `categoryAnalysis` without its percentages: the category tallies sorted by descending count. */
  function CategoryRows(reg: seq<Bot>, blocking: seq<Analysis>): (rows: seq<CategoryCount>)
    ensures forall i, j :: 0 <= i < j < |rows| ==> rows[i].count >= rows[j].count
  {
    var cats := SortByCount(TallyCategories(reg, [], blocking));
    seq(|cats|, i requires 0 <= i < |cats| => ToCategoryCount(cats[i]))
  }

  // ----- what the summary means -----

  /**
   * What a record produced by `parseRobotsTxt` satisfies: its count is the
   * length of its list, the list names each registry bot at most once, and
   * a site that blocks AI has a robots.txt.
   */
  predicate Coherent(reg: seq<Bot>, a: Analysis) {
    && a.aiBotsBlockedCount == |a.blockedBotsList|
    && Distinct(a.blockedBotsList)
    && (forall n :: n in a.blockedBotsList ==> n in Names(reg))
    && (a.blocksAI ==> a.robotsExists)
  }

  /** Every record the robots.txt parser returns is coherent. */
  lemma {:induction false} ParsedIsCoherent(reg: seq<Bot>, content: string, country: string, outlet: string)
    ensures Coherent(reg, ParseRobotsTxt(reg, content, country, outlet))
  {
    var a := ParseRobotsTxt(reg, content, country, outlet);
    var list := a.blockedBotsList;
    forall i, j | 0 <= i < j < |list| ensures list[i] != list[j] {
      if list[i] == list[j] {
        BelowIrreflexive(list[i]);
      }
    }
  }

  /** How many of `sites` list `name` among their blocked bots. */
  function Blockers(sites: seq<Analysis>, name: string): (n: nat)
    ensures n <= |sites|
  {
    if |sites| == 0 then 0
    else (if name in sites[0].blockedBotsList then 1 else 0) + Blockers(sites[1..], name)
  }

  /** Whether a list names a registry bot of category `c`. */
  predicate Touches(reg: seq<Bot>, names: seq<string>, c: string) {
    exists i :: 0 <= i < |names| && CategoryOf(reg, names[i]) == Some(c)
  }

  /** How many of `sites` block at least one registry bot of category `c`. */
  function Touching(reg: seq<Bot>, sites: seq<Analysis>, c: string): (n: nat)
    ensures n <= |sites|
  {
    if |sites| == 0 then 0
    else (if Touches(reg, sites[0].blockedBotsList, c) then 1 else 0) + Touching(reg, sites[1..], c)
  }

  /** A tally keyed by registry entries, each found under its own name. */
  predicate RegistryKeys(reg: seq<Bot>, t: seq<Entry<Bot>>) {
    forall i :: 0 <= i < |t| ==> Lookup(reg, t[i].key.name) == Some(t[i].key)
  }

  /**
   * One site's list adds, under bot `b`, the number of times `b`'s name is
   * listed, provided the registry files that name under `b`.
   */
  lemma {:induction false} TallyNamesCount(reg: seq<Bot>, acc: seq<Entry<Bot>>, names: seq<string>, b: Bot)
    ensures CountOf(TallyNames(reg, acc, names), b) ==
      CountOf(acc, b) + (if Lookup(reg, b.name) == Some(b) then multiset(names)[b.name] else 0)
    decreases |names|
  {
    if |names| > 0 {
      assert names == [names[0]] + names[1..];
      match Lookup(reg, names[0])
      case None =>
        TallyNamesCount(reg, acc, names[1..], b);
        assert Lookup(reg, b.name) == Some(b) ==> names[0] != b.name;
      case Some(x) =>
        BumpCount(acc, x, b);
        TallyNamesCount(reg, Bump(acc, x), names[1..], b);
    }
  }

  /** The bot tally stays keyed by registry entries, without repeats and with positive counts. */
  lemma {:induction false} TallyNamesKeeps(reg: seq<Bot>, acc: seq<Entry<Bot>>, names: seq<string>)
    requires RegistryKeys(reg, acc) && UniqueKeys(acc) && Positive(acc)
    ensures var t := TallyNames(reg, acc, names); RegistryKeys(reg, t) && UniqueKeys(t) && Positive(t)
    decreases |names|
  {
    if |names| > 0 {
      match Lookup(reg, names[0])
      case None =>
        TallyNamesKeeps(reg, acc, names[1..]);
      case Some(x) =>
        BumpKeeps(acc, x);
        BumpShape(acc, x);
        TallyNamesKeeps(reg, Bump(acc, x), names[1..]);
    }
  }

  /** A list without repeats counts a name at most once. */
  lemma {:induction false} DistinctOnce(names: seq<string>, n: string)
    requires Distinct(names)
    ensures multiset(names)[n] == if n in names then 1 else 0
  {
    DistinctMultiset(names);
  }

  /**
   * The bot tallies: a registry bot is counted once for every site whose
   * list names it, and nothing else is counted.
   */
  lemma {:induction false} TallyBotsCount(reg: seq<Bot>, acc: seq<Entry<Bot>>, sites: seq<Analysis>, b: Bot)
    requires forall a :: a in sites ==> Distinct(a.blockedBotsList)
    ensures CountOf(TallyBots(reg, acc, sites), b) ==
      CountOf(acc, b) + (if Lookup(reg, b.name) == Some(b) then Blockers(sites, b.name) else 0)
    decreases |sites|
  {
    if |sites| > 0 {
      var list := sites[0].blockedBotsList;
      TallyNamesCount(reg, acc, list, b);
      DistinctOnce(list, b.name);
      assert forall a :: a in sites[1..] ==> a in sites;
      TallyBotsCount(reg, TallyNames(reg, acc, list), sites[1..], b);
    }
  }

  /** The bot tally holds registry entries only, each once, each counted at least once. */
  lemma {:induction false} TallyBotsKeeps(reg: seq<Bot>, acc: seq<Entry<Bot>>, sites: seq<Analysis>)
    requires RegistryKeys(reg, acc) && UniqueKeys(acc) && Positive(acc)
    ensures var t := TallyBots(reg, acc, sites); RegistryKeys(reg, t) && UniqueKeys(t) && Positive(t)
    decreases |sites|
  {
    if |sites| > 0 {
      TallyNamesKeeps(reg, acc, sites[0].blockedBotsList);
      TallyBotsKeeps(reg, TallyNames(reg, acc, sites[0].blockedBotsList), sites[1..]);
    }
  }

  /** The tallies account for every blocked bot of every site. */
  lemma {:induction false} TallyBotsTotal(reg: seq<Bot>, acc: seq<Entry<Bot>>, sites: seq<Analysis>)
    requires forall a :: a in sites ==> Coherent(reg, a)
    ensures Total(TallyBots(reg, acc, sites)) == Total(acc) + SumBlocked(sites)
    decreases |sites|
  {
    if |sites| > 0 {
      assert sites[0] in sites;
      TallyNamesTotal(reg, acc, sites[0].blockedBotsList);
      assert forall a :: a in sites[1..] ==> a in sites;
      TallyBotsTotal(reg, TallyNames(reg, acc, sites[0].blockedBotsList), sites[1..]);
    }
  }

  lemma {:induction false} TallyNamesTotal(reg: seq<Bot>, acc: seq<Entry<Bot>>, names: seq<string>)
    requires forall n :: n in names ==> n in Names(reg)
    ensures Total(TallyNames(reg, acc, names)) == Total(acc) + |names|
    decreases |names|
  {
    if |names| > 0 {
      assert names[0] in names;
      assert forall n :: n in names[1..] ==> n in names;
      TallyNamesTotal(reg, Bump(acc, Lookup(reg, names[0]).value), names[1..]);
    }
  }

  /**
   * The category tallies: a site adds one to each category it blocks some
   * registry bot of, however many bots of that category it blocks.
   */
  lemma {:induction false} TallyCategoriesCount(reg: seq<Bot>, acc: seq<Entry<string>>, sites: seq<Analysis>, c: string)
    ensures CountOf(TallyCategories(reg, acc, sites), c) == CountOf(acc, c) + Touching(reg, sites, c)
    decreases |sites|
  {
    if |sites| > 0 {
      var cats := SiteCategories(reg, [], sites[0].blockedBotsList);
      BumpAllCount(acc, cats, c);
      CategoryOnce(reg, sites[0].blockedBotsList, c);
      TallyCategoriesCount(reg, BumpAll(acc, cats), sites[1..], c);
    }
  }

  /** The category tally keeps one entry per category, each counted at least once. */
  lemma {:induction false} TallyCategoriesKeeps(reg: seq<Bot>, acc: seq<Entry<string>>, sites: seq<Analysis>)
    requires UniqueKeys(acc) && Positive(acc)
    ensures var t := TallyCategories(reg, acc, sites); UniqueKeys(t) && Positive(t)
    decreases |sites|
  {
    if |sites| > 0 {
      var cats := SiteCategories(reg, [], sites[0].blockedBotsList);
      BumpAllKeeps(acc, cats);
      TallyCategoriesKeeps(reg, BumpAll(acc, cats), sites[1..]);
    }
  }

  /** A site's category set holds `c` once if the site blocks a bot of category `c`, else not at all. */
  lemma {:induction false} CategoryOnce(reg: seq<Bot>, names: seq<string>, c: string)
    ensures multiset(SiteCategories(reg, [], names))[c] == if Touches(reg, names, c) then 1 else 0
  {
    var cats := SiteCategories(reg, [], names);
    DistinctMultiset(cats);
    assert c in cats <==> Touches(reg, names, c);
  }

  lemma {:induction false} WhereBlockingWithinRobots(reg: seq<Bot>, data: seq<Analysis>)
    requires forall a :: a in data ==> Coherent(reg, a)
    ensures |Where(data, BlocksAI)| <= |Where(data, RobotsExists)|
  {
    if |data| > 0 {
      assert data[0] in data;
      assert forall a :: a in data[1..] ==> a in data;
      WhereBlockingWithinRobots(reg, data[1..]);
    }
  }

  /**
   * Over coherent records, blocking sites are among the sites with a
   * robots.txt, and the blocked-bot total is the sum of all per-bot tallies,
   * not only those of the top ten.
   */
  lemma {:induction false} SummaryCounts(reg: seq<Bot>, data: seq<Analysis>)
    requires |data| > 0
    requires forall a :: a in data ==> Coherent(reg, a)
    ensures var s := GenerateSummary(reg, data).value;
      && s.sitesBlockingAICount <= s.sitesWithRobots
      && s.totalBlockedBotsCount == Total(TallyBots(reg, [], Where(data, BlocksAI)))
  {
    WhereBlockingWithinRobots(reg, data);
    TallyBotsTotal(reg, [], Where(data, BlocksAI));
  }

  /**
   * The summary's `topBlockedBots`, read against the sites: each row is a
   * registry bot with its owner and category, counted as the number of
   * blocking sites that list it; no bot appears twice; and a list shorter
   * than ten leaves out no bot that a blocking site lists.
   */
  lemma {:induction false} SummaryTopBots(reg: seq<Bot>, data: seq<Analysis>)
    requires |data| > 0
    requires forall a :: a in data ==> Coherent(reg, a)
    ensures var top := GenerateSummary(reg, data).value.topBlockedBots;
      && (forall i :: 0 <= i < |top| ==>
            && Lookup(reg, top[i].bot) == Some(Bot(top[i].bot, top[i].owner, top[i].category))
            && top[i].count == Blockers(Where(data, BlocksAI), top[i].bot) > 0)
      && (forall i, j :: 0 <= i < j < |top| ==> top[i].bot != top[j].bot)
      && (forall b: Bot :: Lookup(reg, b.name) == Some(b) && Blockers(Where(data, BlocksAI), b.name) > 0 && |top| < 10 ==>
            exists i :: 0 <= i < |top| && top[i].bot == b.name)
  {
    var blocking := Where(data, BlocksAI);
    forall a | a in blocking ensures Distinct(a.blockedBotsList) { }
    TopBotsMeaning(reg, blocking);
    forall b: Bot | Lookup(reg, b.name) == Some(b) && Blockers(blocking, b.name) > 0 && |TopBots(reg, blocking)| < 10
      ensures exists i :: 0 <= i < |TopBots(reg, blocking)| && TopBots(reg, blocking)[i].bot == b.name
    {
      TopBotsComplete(reg, blocking, b);
    }
  }

  /**
   * The summary's `categoryAnalysis`, read against the sites: each row counts
   * the blocking sites touching its category, a positive number no larger than
   * `sitesBlockingAICount`; no category appears twice; every touched category
   * has a row.
   */
  lemma {:induction false} SummaryCategories(reg: seq<Bot>, data: seq<Analysis>)
    requires |data| > 0
    ensures var s := GenerateSummary(reg, data).value;
      && (forall i :: 0 <= i < |s.categoryAnalysis| ==>
            0 < s.categoryAnalysis[i].count == Touching(reg, Where(data, BlocksAI), s.categoryAnalysis[i].category) <= s.sitesBlockingAICount)
      && (forall i, j :: 0 <= i < j < |s.categoryAnalysis| ==> s.categoryAnalysis[i].category != s.categoryAnalysis[j].category)
      && (forall c :: Touching(reg, Where(data, BlocksAI), c) > 0 ==>
            exists i :: 0 <= i < |s.categoryAnalysis| && s.categoryAnalysis[i].category == c)
  {
    CategoryRowsMeaning(reg, Where(data, BlocksAI));
  }

  /**
   * The top list: each row is a registry bot with the owner and category the
   * registry gives it and, as its count, the number of blocking sites that
   * list it; and no bot appears twice.
   */
  lemma {:induction false} TopBotsMeaning(reg: seq<Bot>, blocking: seq<Analysis>)
    requires forall a :: a in blocking ==> Distinct(a.blockedBotsList)
    ensures var top := TopBots(reg, blocking);
      && (forall i :: 0 <= i < |top| ==>
            && Lookup(reg, top[i].bot) == Some(Bot(top[i].bot, top[i].owner, top[i].category))
            && top[i].count == Blockers(blocking, top[i].bot) > 0)
      && (forall i, j :: 0 <= i < j < |top| ==> top[i].bot != top[j].bot)
  {
    var t := TallyBots(reg, [], blocking);
    var sorted := SortByCount(t);
    var entries := Take(sorted, 10);
    var top := TopBots(reg, blocking);
    TallyBotsKeeps(reg, [], blocking);
    PermutationKeepsUnique(t, sorted);
    forall i | 0 <= i < |top|
      ensures Lookup(reg, top[i].bot) == Some(Bot(top[i].bot, top[i].owner, top[i].category))
      ensures top[i].count == Blockers(blocking, top[i].bot) > 0
    {
      assert top[i] == ToBotCount(sorted[i]);
      EntryCount(reg, blocking, t, sorted[i]);
    }
    forall i, j | 0 <= i < j < |top| ensures top[i].bot != top[j].bot {
      assert top[i] == ToBotCount(sorted[i]) && top[j] == ToBotCount(sorted[j]);
      EntryCount(reg, blocking, t, sorted[i]);
      EntryCount(reg, blocking, t, sorted[j]);
    }
  }

  /**
   * A top list shorter than ten holds every registry bot that some blocking
   * site lists.
   */
  lemma {:induction false} TopBotsComplete(reg: seq<Bot>, blocking: seq<Analysis>, b: Bot)
    requires forall a :: a in blocking ==> Distinct(a.blockedBotsList)
    requires Lookup(reg, b.name) == Some(b) && Blockers(blocking, b.name) > 0
    requires |TopBots(reg, blocking)| < 10
    ensures exists i :: 0 <= i < |TopBots(reg, blocking)| && TopBots(reg, blocking)[i].bot == b.name
  {
    var t := TallyBots(reg, [], blocking);
    var sorted := SortByCount(t);
    var top := TopBots(reg, blocking);
    TallyBotsCount(reg, [], blocking, b);
    TallyBotsKeeps(reg, [], blocking);
    CountOfPositive(t, b);
    var k :| 0 <= k < |t| && Keys(t)[k] == b;
    assert t[k] in multiset(sorted);
    var j :| 0 <= j < |sorted| && sorted[j] == t[k];
    assert top[j] == ToBotCount(sorted[j]);
  }

  /**
   * A registry bot that some blocking site lists but the top list leaves
   * out is listed by no more sites than any row of the top list.
   */
  lemma {:induction false} LeftOutBotsRankLower(reg: seq<Bot>, blocking: seq<Analysis>, b: Bot)
    requires forall a :: a in blocking ==> Distinct(a.blockedBotsList)
    requires Lookup(reg, b.name) == Some(b) && Blockers(blocking, b.name) > 0
    requires forall i :: 0 <= i < |TopBots(reg, blocking)| ==> TopBots(reg, blocking)[i].bot != b.name
    ensures forall i :: 0 <= i < |TopBots(reg, blocking)| ==> TopBots(reg, blocking)[i].count >= Blockers(blocking, b.name)
  {
    var t := TallyBots(reg, [], blocking);
    var entries := Take(SortByCount(t), 10);
    var top := TopBots(reg, blocking);
    TallyBotsCount(reg, [], blocking, b);
    TallyBotsKeeps(reg, [], blocking);
    CountOfPositive(t, b);
    var k :| 0 <= k < |t| && Keys(t)[k] == b;
    var e := t[k];
    CountOfEntry(t, k);
    assert e !in entries by {
      forall x | 0 <= x < |entries| ensures entries[x] != e {
        assert top[x] == ToBotCount(entries[x]);
      }
    }
    forall i | 0 <= i < |top| ensures top[i].count >= Blockers(blocking, b.name) {
      assert top[i] == ToBotCount(entries[i]);
      TopDominates(t, 10, entries[i], e);
    }
  }

  /** An entry of a permutation of the bot tallies counts the sites that list its bot. */
  lemma {:induction false} EntryCount(reg: seq<Bot>, blocking: seq<Analysis>, t: seq<Entry<Bot>>, e: Entry<Bot>)
    requires forall a :: a in blocking ==> Distinct(a.blockedBotsList)
    requires t == TallyBots(reg, [], blocking)
    requires e in multiset(t)
    ensures Lookup(reg, e.key.name) == Some(e.key)
    ensures e.count == Blockers(blocking, e.key.name) > 0
  {
    TallyBotsKeeps(reg, [], blocking);
    var k :| 0 <= k < |t| && t[k] == e;
    CountOfEntry(t, k);
    TallyBotsCount(reg, [], blocking, e.key);
  }

  /**
   * The category list: each row counts the blocking sites that list at
   * least one registry bot of that category, so never more than the number
   * of blocking sites; no category appears twice; and every category some
   * blocking site touches has a row.
   */
  lemma {:induction false} CategoryRowsMeaning(reg: seq<Bot>, blocking: seq<Analysis>)
    ensures var rows := CategoryRows(reg, blocking);
      && (forall i :: 0 <= i < |rows| ==>
            0 < rows[i].count == Touching(reg, blocking, rows[i].category) <= |blocking|)
      && (forall i, j :: 0 <= i < j < |rows| ==> rows[i].category != rows[j].category)
      && (forall c :: Touching(reg, blocking, c) > 0 ==> exists i :: 0 <= i < |rows| && rows[i].category == c)
  {
    var t := TallyCategories(reg, [], blocking);
    var sorted := SortByCount(t);
    var rows := CategoryRows(reg, blocking);
    TallyCategoriesKeeps(reg, [], blocking);
    PermutationKeepsUnique(t, sorted);
    forall i | 0 <= i < |rows|
      ensures 0 < rows[i].count == Touching(reg, blocking, rows[i].category)
    {
      assert rows[i] == ToCategoryCount(sorted[i]);
      CategoryEntryCount(reg, blocking, t, sorted[i]);
    }
    forall i, j | 0 <= i < j < |rows| ensures rows[i].category != rows[j].category {
      assert rows[i] == ToCategoryCount(sorted[i]) && rows[j] == ToCategoryCount(sorted[j]);
    }
    forall c | Touching(reg, blocking, c) > 0 ensures exists i :: 0 <= i < |rows| && rows[i].category == c {
      TallyCategoriesCount(reg, [], blocking, c);
      SortKeepsCounts(t, c);
      forall i | 0 <= i < |sorted| ensures sorted[i].count > 0 {
        CategoryEntryCount(reg, blocking, t, sorted[i]);
      }
      CountOfPositive(sorted, c);
      var k :| 0 <= k < |sorted| && Keys(sorted)[k] == c;
      assert rows[k] == ToCategoryCount(sorted[k]);
    }
  }

  lemma {:induction false} CategoryEntryCount(reg: seq<Bot>, blocking: seq<Analysis>, t: seq<Entry<string>>, e: Entry<string>)
    requires t == TallyCategories(reg, [], blocking)
    requires e in multiset(t)
    ensures e.count == Touching(reg, blocking, e.key) > 0
  {
    TallyCategoriesKeeps(reg, [], blocking);
    var k :| 0 <= k < |t| && t[k] == e;
    CountOfEntry(t, k);
    TallyCategoriesCount(reg, [], blocking, e.key);
  }
}

=== FILE: tally.dfy ===
/**
 * Counters kept in a JavaScript object used as a dictionary: the keys in
 * first-seen order, each with a count; and the stable sort of the object's
 * entries by descending count (`Object.entries(o).sort((a, b) => b.count -
 * a.count)`, stable since ECMAScript 2019), optionally cut to its first `n`.
 */
module Tally {
  import opened Text

  datatype Entry<K> = Entry(key: K, count: nat)

  function Keys<K>(t: seq<Entry<K>>): (ks: seq<K>)
    ensures |ks| == |t|
    ensures forall i :: 0 <= i < |t| ==> ks[i] == t[i].key
  {
    seq(|t|, i requires 0 <= i < |t| => t[i].key)
  }

  /** What an object guarantees: no key is stored twice. */
  predicate UniqueKeys<K(==)>(t: seq<Entry<K>>) {
    forall i, j :: 0 <= i < j < |t| ==> t[i].key != t[j].key
  }

  /** The count stored under `k` (summed, should `k` occur more than once). */
  function CountOf<K(==)>(t: seq<Entry<K>>, k: K): nat {
    if |t| == 0 then 0
    else (if t[0].key == k then t[0].count else 0) + CountOf(t[1..], k)
  }

  /** The sum of all counts. */
  function Total<K>(t: seq<Entry<K>>): nat {
    if |t| == 0 then 0 else t[0].count + Total(t[1..])
  }

  /**
   * `o[k] = (o[k] || 0) + 1`: one more under `k`. A key already present
   * keeps its place; a new key is appended, with count 1.
   */
  function Bump<K(==)>(t: seq<Entry<K>>, k: K): (r: seq<Entry<K>>)
    ensures Total(r) == Total(t) + 1
  {
    if |t| == 0 then [Entry(k, 1)]
    else if t[0].key == k then [Entry(k, t[0].count + 1)] + t[1..]
    else [t[0]] + Bump(t[1..], k)
  }

  /**
   * Where the bump lands: the entries keep their keys and places, none
   * loses count, and one entry `k: 1` is appended exactly when `k` is new.
   */
  lemma {:induction false} BumpShape<K>(t: seq<Entry<K>>, k: K)
    ensures |Bump(t, k)| == if k in Keys(t) then |t| else |t| + 1
    ensures forall i :: 0 <= i < |t| ==> Bump(t, k)[i].key == t[i].key && Bump(t, k)[i].count >= t[i].count
    ensures k !in Keys(t) ==> Bump(t, k)[|t|] == Entry(k, 1)
  {
    if |t| > 0 {
      assert Keys(t) == [t[0].key] + Keys(t[1..]);
      if t[0].key != k {
        BumpShape(t[1..], k);
        var r := Bump(t, k);
        assert r == [t[0]] + Bump(t[1..], k);
        forall i | 1 <= i < |t| ensures r[i].key == t[i].key && r[i].count >= t[i].count {
          assert r[i] == Bump(t[1..], k)[i - 1] && t[i] == t[1..][i - 1];
        }
      }
    }
  }

  /** Bumping `k` adds one to the count of `k` and leaves every other count alone. */
  lemma {:induction false} BumpCount<K>(t: seq<Entry<K>>, k: K, j: K)
    ensures CountOf(Bump(t, k), j) == CountOf(t, j) + (if j == k then 1 else 0)
  {
    if |t| > 0 && t[0].key != k {
      BumpCount(t[1..], k, j);
      assert Bump(t, k)[1..] == Bump(t[1..], k);
    }
  }

  /** Bumping keeps the keys unique and every count positive. */
  lemma {:induction false} BumpKeeps<K>(t: seq<Entry<K>>, k: K)
    ensures UniqueKeys(t) ==> UniqueKeys(Bump(t, k))
    ensures Positive(t) ==> Positive(Bump(t, k))
  {
    BumpShape(t, k);
    if UniqueKeys(t) {
      BumpUnique(t, k);
    }
  }

  lemma {:induction false} BumpUnique<K>(t: seq<Entry<K>>, k: K)
    requires UniqueKeys(t)
    requires |Bump(t, k)| == if k in Keys(t) then |t| else |t| + 1
    requires forall i :: 0 <= i < |t| ==> Bump(t, k)[i].key == t[i].key
    requires k !in Keys(t) ==> Bump(t, k)[|t|] == Entry(k, 1)
    ensures UniqueKeys(Bump(t, k))
  {
    var r := Bump(t, k);
    forall a, b | 0 <= a < b < |r| ensures r[a].key != r[b].key {
      if b < |t| {
        assert r[a].key == t[a].key && r[b].key == t[b].key;
      } else {
        assert r[b].key == k && k !in Keys(t);
        assert r[a].key == Keys(t)[a];
      }
    }
  }

  /** Every key stored has been counted at least once. */
  predicate Positive<K>(t: seq<Entry<K>>) {
    forall i :: 0 <= i < |t| ==> t[i].count > 0
  }

  /** Each key of `ks` counted once more, in order. */
  function BumpAll<K(==)>(t: seq<Entry<K>>, ks: seq<K>): (r: seq<Entry<K>>)
    ensures Total(r) == Total(t) + |ks|
    ensures Grows(t, r)
    decreases |ks|
  {
    if |ks| == 0 then t
    else
      BumpShape(t, ks[0]);
      BumpAll(Bump(t, ks[0]), ks[1..])
  }

  /**
   * `r` is a later state of the object `t`: every key already stored keeps
   * its place in the key order, and no count goes down.
   */
  predicate Grows<K(==)>(t: seq<Entry<K>>, r: seq<Entry<K>>) {
    |t| <= |r| && forall i :: 0 <= i < |t| ==> r[i].key == t[i].key && r[i].count >= t[i].count
  }

  /** Counting a sequence of keys adds to each key its multiplicity in the sequence. */
  lemma {:induction false} BumpAllCount<K>(t: seq<Entry<K>>, ks: seq<K>, k: K)
    ensures CountOf(BumpAll(t, ks), k) == CountOf(t, k) + multiset(ks)[k]
    decreases |ks|
  {
    if |ks| > 0 {
      BumpCount(t, ks[0], k);
      BumpAllCount(Bump(t, ks[0]), ks[1..], k);
      assert ks == [ks[0]] + ks[1..];
    }
  }

  lemma {:induction false} BumpAllKeeps<K>(t: seq<Entry<K>>, ks: seq<K>)
    ensures UniqueKeys(t) ==> UniqueKeys(BumpAll(t, ks))
    ensures Positive(t) ==> Positive(BumpAll(t, ks))
    decreases |ks|
  {
    if |ks| > 0 {
      BumpKeeps(t, ks[0]);
      BumpAllKeeps(Bump(t, ks[0]), ks[1..]);
    }
  }

  /** The keys present are those with a positive count. */
  lemma {:induction false} CountOfPositive<K>(t: seq<Entry<K>>, k: K)
    requires forall i :: 0 <= i < |t| ==> t[i].count > 0
    ensures CountOf(t, k) > 0 <==> k in Keys(t)
  {
    if |t| > 0 {
      CountOfPositive(t[1..], k);
      assert Keys(t) == [t[0].key] + Keys(t[1..]);
    }
  }

  /** With unique keys, the count of a key is the one its entry holds. */
  lemma {:induction false} CountOfEntry<K>(t: seq<Entry<K>>, i: nat)
    requires UniqueKeys(t) && i < |t|
    ensures CountOf(t, t[i].key) == t[i].count
  {
    var rest := t[1..];
    assert UniqueKeys(rest) by {
      forall a, b | 0 <= a < b < |rest| ensures rest[a].key != rest[b].key {
        assert rest[a] == t[a + 1] && rest[b] == t[b + 1];
      }
    }
    if i == 0 {
      CountOfAbsent(rest, t[0].key);
    } else {
      assert rest[i - 1] == t[i];
      CountOfEntry(rest, i - 1);
    }
  }

  lemma {:induction false} CountOfAbsent<K>(t: seq<Entry<K>>, k: K)
    requires forall i :: 0 <= i < |t| ==> t[i].key != k
    ensures CountOf(t, k) == 0
  {
    if |t| > 0 {
      CountOfAbsent(t[1..], k);
    }
  }

  // ----- the stable sort by descending count -----

  predicate NonIncreasing<K>(t: seq<Entry<K>>) {
    forall i, j :: 0 <= i < j < |t| ==> t[i].count >= t[j].count
  }

  /**
   * Place `x` in front of the first entry whose count does not exceed its
   * own: `x` comes before the entries it ties with, which is what keeps
   * the sort stable when `x` is the earlier of them.
   */
  function Insert<K>(x: Entry<K>, s: seq<Entry<K>>): (r: seq<Entry<K>>)
    ensures multiset(r) == multiset(s) + multiset{x}
    ensures NonIncreasing(s) ==> NonIncreasing(r)
  {
    if |s| == 0 then [x]
    else if s[0].count <= x.count then [x] + s
    else
      var r := [s[0]] + Insert(x, s[1..]);
      assert s == [s[0]] + s[1..];
      assert NonIncreasing(s) ==> NonIncreasing(r) by {
        if NonIncreasing(s) {
          forall k | 0 <= k < |s[1..]| ensures s[1..][k].count <= s[0].count {
            assert s[1..][k] == s[k + 1];
          }
          PermutationBelow(x, s[1..], Insert(x, s[1..]), s[0].count);
        }
      }
      r
  }

  /** A permutation of `s` and `x` has no count above a bound that `x` and all of `s` respect. */
  lemma {:induction false} PermutationBelow<K>(x: Entry<K>, s: seq<Entry<K>>, r: seq<Entry<K>>, b: nat)
    requires multiset(r) == multiset(s) + multiset{x}
    requires x.count <= b && forall k :: 0 <= k < |s| ==> s[k].count <= b
    ensures forall j :: 0 <= j < |r| ==> r[j].count <= b
  {
    forall j | 0 <= j < |r| ensures r[j].count <= b {
      assert r[j] in multiset(r);
      if r[j] != x {
        assert r[j] in multiset(s);
        var k :| 0 <= k < |s| && s[k] == r[j];
      }
    }
  }

  /** `entries.sort((a, b) => b.count - a.count)`. */
  function SortByCount<K>(t: seq<Entry<K>>): (r: seq<Entry<K>>)
    ensures multiset(r) == multiset(t)
    ensures |r| == |t|
    ensures NonIncreasing(r)
  {
    if |t| == 0 then []
    else
      assert t == [t[0]] + t[1..];
      Insert(t[0], SortByCount(t[1..]))
  }

  /** The entries with count `c`, in order. */
  function WithCount<K>(t: seq<Entry<K>>, c: nat): (r: seq<Entry<K>>)
    ensures |r| <= |t|
  {
    if |t| == 0 then []
    else if t[0].count == c then [t[0]] + WithCount(t[1..], c)
    else WithCount(t[1..], c)
  }

  lemma {:induction false} InsertWithCount<K>(x: Entry<K>, s: seq<Entry<K>>, c: nat)
    ensures WithCount(Insert(x, s), c) == (if x.count == c then [x] else []) + WithCount(s, c)
  {
    if |s| > 0 && s[0].count > x.count {
      InsertWithCount(x, s[1..], c);
      assert Insert(x, s) == [s[0]] + Insert(x, s[1..]);
    }
  }

  /**
   * The sort is stable: for every count, the entries holding it keep their
   * relative order.
   */
  lemma {:induction false} SortStable<K>(t: seq<Entry<K>>, c: nat)
    ensures WithCount(SortByCount(t), c) == WithCount(t, c)
  {
    if |t| > 0 {
      SortStable(t[1..], c);
      InsertWithCount(t[0], SortByCount(t[1..]), c);
    }
  }

  /** Sorting moves the counts around but changes none of them. */
  lemma {:induction false} SortKeepsCounts<K>(t: seq<Entry<K>>, k: K)
    ensures CountOf(SortByCount(t), k) == CountOf(t, k)
  {
    if |t| > 0 {
      SortKeepsCounts(t[1..], k);
      InsertCountOf(t[0], SortByCount(t[1..]), k);
    }
  }

  lemma {:induction false} InsertCountOf<K>(x: Entry<K>, s: seq<Entry<K>>, k: K)
    ensures CountOf(Insert(x, s), k) == CountOf(s, k) + (if x.key == k then x.count else 0)
  {
    if |s| > 0 && s[0].count > x.count {
      InsertCountOf(x, s[1..], k);
      assert Insert(x, s) == [s[0]] + Insert(x, s[1..]);
    }
  }

  /** `.slice(0, n)`. */
  function Take<T>(t: seq<T>, n: nat): (r: seq<T>)
    ensures |r| == if |t| <= n then |t| else n
    ensures |t| <= n ==> r == t
    ensures forall i :: 0 <= i < |r| ==> r[i] == t[i]
  {
    if |t| <= n then t else t[..n]
  }

  /**
   * The first `n` entries of the sorted list: at most `n`, in descending
   * order, and no entry left out counts more than any entry kept.
   */
  lemma {:induction false} TopDominates<K>(t: seq<Entry<K>>, n: nat, d: Entry<K>, e: Entry<K>)
    requires d in Take(SortByCount(t), n)
    requires e in t && e !in Take(SortByCount(t), n)
    ensures d.count >= e.count
  {
    var s := SortByCount(t);
    var top := Take(s, n);
    assert e in multiset(s);
    var j :| 0 <= j < |s| && s[j] == e;
    var i :| 0 <= i < |top| && top[i] == d;
  }

  /** Reordering the entries of an object keeps its keys unique. */
  lemma {:induction false} PermutationKeepsUnique<K>(t: seq<Entry<K>>, s: seq<Entry<K>>)
    requires multiset(s) == multiset(t)
    requires UniqueKeys(t)
    ensures UniqueKeys(s)
  {
    forall i, j | 0 <= i < j < |s| ensures s[i].key != s[j].key {
      if s[i].key == s[j].key {
        assert s[i] in multiset(t) && s[j] in multiset(t);
        var a :| 0 <= a < |t| && t[a] == s[i];
        var b :| 0 <= b < |t| && t[b] == s[j];
        assert a == b;
        Twice(s, i, j);
        assert Distinct(t) by {
          forall x, y | 0 <= x < y < |t| ensures t[x] != t[y] {
            assert t[x].key != t[y].key;
          }
        }
        DistinctMultiset(t);
      }
    }
  }
}

=== FILE: text.dfy ===
/**
 * String primitives the scanner relies on: JavaScript's `trim`, ASCII
 * `toLowerCase`, `startsWith`, `split` on one separator character, and the
 * default (code-point) ordering used by `Array.prototype.sort`.
 */
module Text {

  /** The characters ECMAScript's `String.prototype.trim` removes: WhiteSpace and LineTerminator. */
  predicate IsSpace(c: char) {
    || c == ' '
    || ('\t' <= c <= '\r')              // tab, line feed, vertical tab, form feed, carriage return
    || c == '\U{A0}' || c == '\U{1680}'
    || ('\U{2000}' <= c <= '\U{200A}')
    || c == '\U{2028}' || c == '\U{2029}'
    || c == '\U{202F}' || c == '\U{205F}'
    || c == '\U{3000}' || c == '\U{FEFF}'
  }

  predicate AllSpace(s: string) {
    forall i :: 0 <= i < |s| ==> IsSpace(s[i])
  }

  function TrimStart(s: string): (r: string)
    ensures |r| <= |s| && r == s[|s| - |r|..]
    ensures r == [] || !IsSpace(r[0])
  {
    if |s| > 0 && IsSpace(s[0]) then TrimStart(s[1..]) else s
  }

  function TrimEnd(s: string): (r: string)
    ensures |r| <= |s| && r == s[..|r|]
    ensures r == [] || !IsSpace(r[|r| - 1])
  {
    if |s| > 0 && IsSpace(s[|s| - 1]) then TrimEnd(s[..|s| - 1]) else s
  }

  /** `s.trim()`: drops white space from both ends. */
  function Trim(s: string): (r: string)
    ensures |r| <= |s|
    ensures r == [] || (!IsSpace(r[0]) && !IsSpace(r[|r| - 1]))
  {
    TrimEnd(TrimStart(s))
  }

  lemma {:induction false} TrimStartDropsSpace(s: string)
    ensures AllSpace(s[..|s| - |TrimStart(s)|])
    decreases |s|
  {
    if |s| > 0 && IsSpace(s[0]) {
      TrimStartDropsSpace(s[1..]);
      assert s[..|s| - |TrimStart(s)|] == [s[0]] + s[1..][..|s| - 1 - |TrimStart(s[1..])|];
    }
  }

  lemma {:induction false} TrimEndDropsSpace(s: string)
    ensures AllSpace(s[|TrimEnd(s)|..])
    decreases |s|
  {
    if |s| > 0 && IsSpace(s[|s| - 1]) {
      var init := s[..|s| - 1];
      TrimEndDropsSpace(init);
      assert s[|TrimEnd(s)|..] == init[|TrimEnd(init)|..] + [s[|s| - 1]];
    }
  }

  /** The trimmed text is the infix of `s` left after removing white space at both ends. */
  lemma {:induction false} TrimMeaning(s: string)
    ensures exists i, j :: 0 <= i <= j <= |s| && Trim(s) == s[i..j] && AllSpace(s[..i]) && AllSpace(s[j..])
  {
    var a := TrimStart(s);
    var b := TrimEnd(a);
    TrimStartDropsSpace(s);
    TrimEndDropsSpace(a);
    var i, j := |s| - |a|, |s| - |a| + |b|;
    assert b == s[i..j];
    assert s[j..] == a[|b|..];
  }

  /** The trimmed text is empty exactly when every character is white space. */
  lemma {:induction false} TrimEmptyIffAllSpace(s: string)
    ensures Trim(s) == [] <==> AllSpace(s)
  {
    var a := TrimStart(s);
    TrimStartDropsSpace(s);
    TrimEndDropsSpace(a);
    if Trim(s) == [] {
      assert AllSpace(a[0..]);
      assert a == [];
      assert s[..|s|] == s;
    }
  }

  lemma {:induction false} TrimStartAppend(x: string, y: string)
    ensures TrimStart(x + y) == if TrimStart(x) == [] then TrimStart(y) else TrimStart(x) + y
    decreases |x|
  {
    if |x| > 0 {
      assert (x + y)[0] == x[0];
      if IsSpace(x[0]) {
        assert (x + y)[1..] == x[1..] + y;
        TrimStartAppend(x[1..], y);
      }
    } else {
      assert x + y == y;
    }
  }

  /** One more white-space character at the end does not change the trimmed text. */
  lemma {:induction false} TrimTrailingSpace(x: string, w: char)
    requires IsSpace(w)
    ensures Trim(x + [w]) == Trim(x)
  {
    TrimStartAppend(x, [w]);
    if TrimStart(x) != [] {
      var z := TrimStart(x) + [w];
      assert z[..|z| - 1] == TrimStart(x);
    }
  }

  /** `toLowerCase` on one character; only the ASCII letters are mapped. */
  function LowerChar(c: char): char {
    if 'A' <= c <= 'Z' then (c as int + 32) as char else c
  }

  function Lower(s: string): (r: string)
    ensures |r| == |s|
    ensures forall i :: 0 <= i < |s| ==> r[i] == LowerChar(s[i])
  {
    seq(|s|, i requires 0 <= i < |s| => LowerChar(s[i]))
  }

  /** Two characters agree ignoring ASCII case: equal, or an ASCII capital and its small letter. */
  predicate SameLetter(x: char, y: char) {
    || x == y
    || ('A' <= x <= 'Z' && y as int == x as int + 32)
    || ('A' <= y <= 'Z' && x as int == y as int + 32)
  }

  /** Two texts agree character by character ignoring ASCII case. */
  predicate EqualIgnoringCase(a: string, b: string) {
    |a| == |b| && forall i :: 0 <= i < |a| ==> SameLetter(a[i], b[i])
  }

  lemma {:induction false} LowerCharSame(x: char, y: char)
    ensures LowerChar(x) == LowerChar(y) <==> SameLetter(x, y)
  {
  }

  /** Lower-casing identifies two texts exactly when they agree ignoring ASCII case. */
  lemma {:induction false} LowerEqualIff(a: string, b: string)
    ensures Lower(a) == Lower(b) <==> EqualIgnoringCase(a, b)
  {
    if Lower(a) == Lower(b) {
      forall i | 0 <= i < |a| ensures SameLetter(a[i], b[i]) {
        assert Lower(a)[i] == Lower(b)[i];
        LowerCharSame(a[i], b[i]);
      }
    }
    if EqualIgnoringCase(a, b) {
      forall i | 0 <= i < |a| ensures Lower(a)[i] == Lower(b)[i] {
        LowerCharSame(a[i], b[i]);
      }
    }
  }

  predicate StartsWith(s: string, prefix: string) {
    |prefix| <= |s| && s[..|prefix|] == prefix
  }

  /**
   * `s.split(sep)` for a single-character separator: the maximal runs between
   * separators, in order, including empty ones; never an empty sequence.
   */
  function Split(s: string, sep: char): (parts: seq<string>)
    ensures |parts| >= 1
    decreases |s|
  {
    if |s| == 0 then [""]
    else
      var rest := Split(s[1..], sep);
      if s[0] == sep then [""] + rest else [[s[0]] + rest[0]] + rest[1..]
  }

  /** `parts.join(sep)`, the inverse of `Split`. */
  function Join(parts: seq<string>, sep: char): string {
    if |parts| == 0 then ""
    else if |parts| == 1 then parts[0]
    else parts[0] + [sep] + Join(parts[1..], sep)
  }

  /** Joining the pieces back with the separator restores the text. */
  lemma {:induction false} JoinSplit(s: string, sep: char)
    ensures Join(Split(s, sep), sep) == s
    decreases |s|
  {
    if |s| > 0 {
      var rest := Split(s[1..], sep);
      JoinSplit(s[1..], sep);
      if s[0] == sep {
        assert Split(s, sep) == [""] + rest;
        assert ([""] + rest)[1..] == rest;
      } else if |rest| == 1 {
        assert Split(s, sep) == [[s[0]] + rest[0]];
      } else {
        var parts := Split(s, sep);
        assert parts[1..] == rest[1..];
        assert Join(rest, sep) == rest[0] + [sep] + Join(rest[1..], sep);
      }
    }
  }

  /** No piece contains the separator, and there is one more piece than separators. */
  lemma {:induction false} SplitPieces(s: string, sep: char)
    ensures forall i :: 0 <= i < |Split(s, sep)| ==> sep !in Split(s, sep)[i]
    ensures |Split(s, sep)| == multiset(s)[sep] + 1
    decreases |s|
  {
    if |s| > 0 {
      SplitPieces(s[1..], sep);
      assert s == [s[0]] + s[1..];
      assert multiset(s) == multiset{s[0]} + multiset(s[1..]);
    }
  }

  lemma {:induction false} SplitNoSep(w: string, sep: char)
    requires sep !in w
    ensures Split(w, sep) == [w]
    decreases |w|
  {
    if |w| > 0 {
      SplitNoSep(w[1..], sep);
      assert [w[0]] + w[1..] == w;
    }
  }

  lemma {:induction false} SplitAfterPiece(w: string, sep: char, t: string)
    requires sep !in w
    ensures Split(w + [sep] + t, sep) == [w] + Split(t, sep)
    decreases |w|
  {
    if |w| == 0 {
      assert w + [sep] + t == [sep] + t;
      assert ([sep] + t)[1..] == t;
    } else {
      var s := w + [sep] + t;
      assert s[1..] == w[1..] + [sep] + t;
      SplitAfterPiece(w[1..], sep, t);
      assert [w[0]] + w[1..] == w;
    }
  }

  /** Splitting a join of separator-free pieces gives the pieces back. */
  lemma {:induction false} SplitJoin(parts: seq<string>, sep: char)
    requires |parts| >= 1
    requires forall i :: 0 <= i < |parts| ==> sep !in parts[i]
    ensures Split(Join(parts, sep), sep) == parts
    decreases |parts|
  {
    if |parts| == 1 {
      SplitNoSep(parts[0], sep);
    } else {
      SplitJoin(parts[1..], sep);
      SplitAfterPiece(parts[0], sep, Join(parts[1..], sep));
      assert [parts[0]] + parts[1..] == parts;
    }
  }

  // ----- ordering of strings, as `Array.prototype.sort` with no comparator -----

  /** Strict lexicographic order on character codes. */
  predicate Below(a: string, b: string)
    decreases |a|
  {
    |b| > 0 && (|a| == 0 || a[0] < b[0] || (a[0] == b[0] && Below(a[1..], b[1..])))
  }

  lemma {:induction false} BelowIrreflexive(a: string)
    ensures !Below(a, a)
    decreases |a|
  {
    if |a| > 0 {
      BelowIrreflexive(a[1..]);
    }
  }

  lemma {:induction false} BelowTransitive(a: string, b: string, c: string)
    requires Below(a, b) && Below(b, c)
    ensures Below(a, c)
    decreases |a|
  {
    if |a| > 0 && a[0] == b[0] && b[0] == c[0] {
      BelowTransitive(a[1..], b[1..], c[1..]);
    }
  }

  lemma {:induction false} BelowTotal(a: string, b: string)
    requires a != b
    ensures Below(a, b) || Below(b, a)
    decreases |a|
  {
    if |a| > 0 && |b| > 0 && a[0] == b[0] {
      assert a == [a[0]] + a[1..] && b == [b[0]] + b[1..];
      BelowTotal(a[1..], b[1..]);
    }
  }

  predicate Sorted(s: seq<string>) {
    forall i, j :: 0 <= i < j < |s| ==> !Below(s[j], s[i])
  }

  predicate StrictlySorted(s: seq<string>) {
    forall i, j :: 0 <= i < j < |s| ==> Below(s[i], s[j])
  }

  predicate Distinct<T(==)>(s: seq<T>) {
    forall i, j :: 0 <= i < j < |s| ==> s[i] != s[j]
  }

  /** The reflexive order `!Below(b, a)` is transitive too. */
  lemma {:induction false} AtMostTransitive(a: string, b: string, c: string)
    requires !Below(b, a) && !Below(c, b)
    ensures !Below(c, a)
  {
    if Below(c, a) {
      if a != b {
        BelowTotal(a, b);
        if b != c {
          BelowTotal(b, c);
          BelowTransitive(a, b, c);
          BelowTransitive(c, a, c);
        } else {
          BelowTransitive(c, a, b);
        }
        BelowIrreflexive(c);
      }
    }
  }

  function InsertSorted(x: string, s: seq<string>): (r: seq<string>)
    requires Sorted(s)
    ensures Sorted(r)
    ensures multiset(r) == multiset(s) + multiset{x}
  {
    if |s| == 0 then [x]
    else if !Below(s[0], x) then
      forall j | 0 <= j < |s| ensures !Below(s[j], x) {
        if j > 0 { AtMostTransitive(x, s[0], s[j]); }
      }
      [x] + s
    else
      var tail := InsertSorted(x, s[1..]);
      assert multiset(s) == multiset{s[0]} + multiset(s[1..]) by { assert s == [s[0]] + s[1..]; }
      forall k | 0 <= k < |tail| ensures !Below(tail[k], s[0]) {
        assert tail[k] in multiset(tail);
        if Below(tail[k], s[0]) {
          if tail[k] == x {
            BelowTransitive(s[0], x, s[0]);
            BelowIrreflexive(s[0]);
          }
        }
      }
      [s[0]] + tail
  }

  /** `Array.from(xs).sort()`: insertion sort in code-point order. */
  function SortStrings(s: seq<string>): (r: seq<string>)
    ensures Sorted(r)
    ensures multiset(r) == multiset(s)
  {
    if |s| == 0 then []
    else
      assert s == [s[0]] + s[1..];
      InsertSorted(s[0], SortStrings(s[1..]))
  }

  /** An element found at two places of a sequence occurs in its multiset at least twice. */
  lemma {:induction false} Twice<T>(s: seq<T>, i: nat, j: nat)
    requires i < j < |s| && s[i] == s[j]
    ensures multiset(s)[s[i]] >= 2
  {
    var pre := s[..j];
    assert s == pre + s[j..];
    assert s[i] in multiset(pre) by { assert pre[i] == s[i]; }
    assert s[i] in multiset(s[j..]) by { assert s[j..][0] == s[j]; }
    assert multiset(s) == multiset(pre) + multiset(s[j..]);
  }

  /** A sorted permutation of distinct strings is strictly increasing and distinct. */
  lemma {:induction false} SortedDistinct(s: seq<string>)
    requires Sorted(s)
    requires forall x :: x in multiset(s) ==> multiset(s)[x] == 1
    ensures StrictlySorted(s)
    ensures Distinct(s)
  {
    forall i, j | 0 <= i < j < |s| ensures Below(s[i], s[j]) && s[i] != s[j] {
      if s[i] == s[j] {
        var x := s[i];
        Twice(s, i, j);
      }
      BelowTotal(s[i], s[j]);
    }
  }

  /** Distinct elements: the multiset of the sequence counts each at most once. */
  lemma {:induction false} DistinctMultiset<T>(s: seq<T>)
    requires Distinct(s)
    ensures forall x :: x in multiset(s) ==> multiset(s)[x] == 1
    ensures |set x | x in s| == |s|
  {
    if |s| > 0 {
      var t := s[1..];
      assert Distinct(t) by {
        forall i, j | 0 <= i < j < |t| ensures t[i] != t[j] { assert t[i] == s[i + 1] && t[j] == s[j + 1]; }
      }
      DistinctMultiset(t);
      assert s == [s[0]] + t;
      assert s[0] !in t;
      assert s[0] !in multiset(t);
      assert multiset(s) == multiset{s[0]} + multiset(t);
      assert (set x | x in s) == {s[0]} + (set x | x in t);
    }
  }
}
